=== FILE: README.md ===
# sdrmm request admission and queue bookkeeping, in Dafny

sdrmm is a command-line companion to a remote song-request queue service (DRM)
for Beat Saber streams. Each invocation runs one command: request a map, move
a request to the top, show the queue, open or close the queue, undo a request,
ban or unban a map, or start a new session. The program keeps a small SQLite
database. It holds banned maps, per-user request counters, and a log of
sessions whose newest row says whether the queue is open.

The repository has two implementations:

- the Go program: `main.go`, `parser/main.go`, `runner.go`, `filters.go`,
  `errors.go`, `database/main.go` and `utils/unixepoch.go`;
- an unfinished Rust port: `src/main.rs`, `src/filter.rs`, `src/database.rs`
  and `src/helpers.rs`.

This project models both implementations as written, defects included. It
does not reconcile one with the other.

How the model is built:

- Every command is a pure function. It takes the local store and the remote
  service's replies.
- A Go command ends in a `GoOutcome`. It either finishes with the remote calls
  it issued, the message it printed and the store it left, or it crashes,
  because `PanicOnError`, an index out of range or a failed type assertion
  ends the process. The calls and writes made before a crash are kept.
- A Rust command ends in a `RustOutcome`: completed with the lines it printed,
  or panicked on an `unwrap`.
- The remote service is a log of mutating calls (`Remote.Call`). Its replies
  are inputs: the queried map, the queue snapshot, the user's positions, and
  whether a request succeeded.
- The clock, Go's `%f` rendering of floats, date layouts and chrono's
  calendar arithmetic are parameters.

Modules:

| module | file | models |
|---|---|---|
| `Decimal` | decimal.dfy | `%d` / `{}` rendering, digit reading, truncating `/` and `%` |
| `Schema`, `Wrappers` | schema.dfy, wrappers.dfy | record shapes of the queue service; `Option` |
| `SessionLog` | session_log.dfy | the queue-status table; the newest row is the current status |
| `GoStore` | go_store.dfy | database/main.go |
| `RustStore` | rust_store.dfy | src/database.rs |
| `Errors` | errors.dfy | errors.go |
| `GoFilter` | go_filter.dfy | filters.go |
| `Helpers` | helpers.dfy | src/helpers.rs |
| `RustFilter` | rust_filter.dfy | src/filter.rs |
| `Remote`, `Surgery`, `Effects` | remote.dfy, surgery.dfy, effects.dfy | remote call log, sequence surgery of the two undo paths, command outcomes |
| `Parser` | parser.dfy | parser/main.go |
| `Runner` | runner.dfy | runner.go |
| `GoMain` | go_main.dfy | main.go |
| `RustMain` | rust_main.dfy | the command functions of src/main.rs |
| `UnixEpoch` | unix_epoch.dfy | utils/unixepoch.go |

Behaviours of the code that the model keeps and proves:

- Go `SetUserRequests` is a plain INSERT. `GetUserRequests` has just
  inserted a `(user, 0)` row. So runner.go's "add" with a positive request
  limit always dies after the map was enqueued.
- runner.go's "unban" calls `BanMap`.
- runner.go's "wip" appends the requester after "?user" without the '=' that parser/main.go puts there.
- runner.go's "oops" indexes the snapshot by the number of positions minus
  one. It then drops every entry sharing key and requester with that entry.
- parser/main.go's undo drops the entry at the user's last position, but
  hands back the last kept entry. It reports "no requests" when the only
  entry is the removed one.
- Rust `add_user_requests` never parses, because its statement lacks the
  parentheses around `VALUES`. So a user without a row never gets one, and
  the session limit never applies to them.
- The Rust ban and date checks are inverted. Any representable minimum-age
  subtraction rejects every map. "Too short" compares against the maximum
  length.
- A Rust refund has no floor at zero.

## Model

| member | source | states |
|---|---|---|
| `Decimal.NatToString` | utils/unixepoch.go:30 | the rendering is canonical digits, and "0" exactly for zero |
| `Decimal.ReadRendered` | utils/unixepoch.go:30 | reading back the `%d` rendering of a natural number gives the number |
| `Decimal.RenderRead` | utils/unixepoch.go:30 | every canonical digit string is the rendering of its value, so rendering is onto canonical strings |
| `Decimal.NatToStringInjective` | utils/unixepoch.go:30 | distinct numbers render to distinct texts |
| `Decimal.IntToString` | utils/unixepoch.go:30 | a rendering is non-empty, starts with '-' exactly for negatives, and is canonical digits otherwise |
| `Decimal.Quot` | errors.go:65 | Go's `/` truncates toward zero: equals Euclidean division for non-negative operands and rounds a negative dividend up |
| `Decimal.Rem` | errors.go:65 | Go's `%` completes `Quot` (`a == b*q + r`) and takes the sign of the dividend |
| `Decimal.HoursMinutesSeconds` | src/main.rs:25-27 | whole hours, minutes below 60 and seconds below 60 add back up to a non-negative length |
| `SessionLog.Newest` | database/main.go:120-132 | the current status row is a present timestamp that no other row exceeds |
| `SessionLog.NewestUnique` | database/main.go:105 | the row `ORDER BY timestamp DESC LIMIT 1` picks is determined uniquely |
| `SessionLog.NewestAfterAppend` | database/main.go:26-32 | a session inserted later than every existing one becomes the current one |
| `SessionLog.NewestAfterUpdate` | database/main.go:114-117 | updating a row's flag never changes which row is current |
| `GoStore.NewSession` | database/main.go:26-32 | succeeds exactly for an unused timestamp and adds it closed; other tables unchanged |
| `GoStore.BanMap` | database/main.go:39-44 | succeeds exactly when the id is not yet banned, recording its hash; fatal otherwise |
| `GoStore.UnbanMap` | database/main.go:46-51 | removes exactly the id from the ban table, keeping every other entry |
| `GoStore.FindBannedMap` | database/main.go:53-64 | true exactly when a ban row with that id exists |
| `GoStore.GetUserRequests` | database/main.go:66-83 | the stored count, or for an unknown user a fresh 0 row and 0; afterwards the user always has a row holding the value returned |
| `GoStore.SetUserRequests` | database/main.go:85-90 | succeeds exactly for a user without a row |
| `GoStore.ClearRequestLimits` | database/main.go:92-97 | no counter row remains; bans and sessions untouched |
| `GoStore.SetQueueStatus` | database/main.go:99-118 | fatal exactly on an empty session table; keeps the set of sessions |
| `GoStore.GetQueueStatus` | database/main.go:120-132 | fatal exactly on an empty table; otherwise the flag of a row no other row postdates |
| `GoStore.BanThenFind` | database/main.go:39-64 | a ban is found afterwards, and banning the same id again is fatal |
| `GoStore.UnbanThenFind` | database/main.go:46-64 | after an unban the id is not found; unbanning an absent id is a no-op |
| `GoStore.SetUserRequestsNeverOverwrites` | database/main.go:85-90 | setting the count of a user who has a row is always fatal |
| `GoStore.ReadThenSetIsFatal` | database/main.go:66-90 | a read followed by a set for the same user is always fatal |
| `GoStore.ClearThenZero` | database/main.go:66-97 | after clearing, every user reads 0 |
| `GoStore.NewSessionCloses` | database/main.go:26-32 | a new latest session makes the queue read as closed; with no sessions reading is fatal |
| `GoStore.SetThenGetQueueStatus` | database/main.go:99-132 | a stored status is read back and older sessions keep their flags |
| `RustStore.NewSession` | src/database.rs:50-57 | inserts the caller's flag exactly for an unused timestamp; otherwise an error and no change |
| `RustStore.GetQueueStatus` | src/database.rs:59-78 | panics exactly on an empty table or when the newest timestamp does not read as the `i32` field of src/database/schema.rs:3; otherwise the newest row's flag |
| `RustStore.SetQueueStatus` | src/database.rs:80-96 | always Ok; keeps the set of sessions and the counters |
| `RustStore.GetUserRequests` | src/database.rs:98-111 | Ok with the stored count exactly for a known user, `NotFound(-1)` otherwise; creates nothing |
| `RustStore.AddUserRequests` | src/database.rs:113-120 | always a SQLite error that changes nothing |
| `RustStore.SetUserRequests` | src/database.rs:122-129 | always Ok and never adds or removes a user |
| `RustStore.ClearUserRequests` | src/database.rs:131-135 | no counter remains; sessions untouched |
| `RustStore.SetThenGetUserRequests` | src/database.rs:98-129 | a set is read back for a known user; for an unknown user it is an Ok no-op |
| `RustStore.ClearThenNotFound` | src/database.rs:98-135 | after clearing every user is unknown |
| `RustStore.NewSessionKeepsFlag` | src/database.rs:50-78 | a new latest session reads back with the flag given, closed or open, when its timestamp fits an `i32`; otherwise the read panics |
| `RustStore.SetThenGetQueueStatus` | src/database.rs:59-96 | a stored status is read back when the newest timestamp fits an `i32`, the read panics otherwise, and older sessions keep their flags |
| `Errors.LengthText` | errors.go:64-66 | for a non-negative length, the minutes within the hour and the seconds, unpadded, around ':' |
| `Errors.Error` | errors.go:15-75 | every rejection text but the ban's starts with "map "; the ban's is the id followed by a fixed phrase |
| `Errors.LengthTextReadsBack` | errors.go:64-66 | reading the text back, minutes before the ':' and seconds after it, gives the length less its whole hours, each field below 60 |
| `Errors.HoursAreDropped` | errors.go:64-75 | lengths an hour apart give identical short and long texts |
| `Errors.SixtyFiveSeconds` | errors.go:64-66 | 65 seconds render "1:5", without zero padding |
| `Errors.BannedText` | errors.go:55-57 | the banned text is the id followed by a fixed phrase |
| `Errors.ShortAndLongDifferInOneWord` | errors.go:64-75 | for one length, the two texts share the opening "map is too " and everything after the word "short" or "long" |
| `Errors.RangeTextsDifferInUnit` | errors.go:15-33 | for the same bounds, the NJS and NPS texts are distinct, of equal length, and agree everywhere but the final unit |
| `GoFilter.ScanDiffs` | filters.go:44-55 | a flag ends up set exactly when it started set or some difficulty is in range |
| `GoFilter.FilterMap` | filters.go:13-67 | the map is handed back unchanged |
| `GoFilter.AcceptedIffAdmissible` | filters.go:13-67 | no rejection exactly when the key is not banned, the upload is on or after the cutoff, at least `mapAge` days old, and some difficulty is in the NJS range and some in the NPS range |
| `GoFilter.BanComesFirst` | filters.go:15-17 | a banned key is rejected as banned whatever else holds |
| `GoFilter.CutoffIsStrict` | filters.go:19-25 | an upload exactly at the cutoff passes; an earlier one is rejected as too old |
| `GoFilter.AgeCheck` | filters.go:27-30 | too new exactly when fewer than `mapAge` days have elapsed; a zero age never rejects a past upload |
| `GoFilter.NoDifficultiesFailNjs` | filters.go:33-59 | a map without difficulties fails the NJS check even with every bound 0 |
| `GoFilter.NjsReportedBeforeNps` | filters.go:57-63 | when no difficulty meets NJS, the NJS rejection is the one reported |
| `GoFilter.DifferentDifficultiesMaySatisfy` | filters.go:44-55 | NJS and NPS may be met by different difficulties |
| `GoFilter.DurationIgnored` | filters.go:13-67 | the length and the length bounds play no part in the verdict |
| `Helpers.IgnoreConfig` | src/helpers.rs:93-95 | a setting is ignored exactly when it is zero |
| `Helpers.IgnoreOrGt` | src/helpers.rs:8-10 | passes when the setting is zero or the value exceeds it |
| `Helpers.IgnoreOrLt` | src/helpers.rs:16-18 | passes when the setting is zero or the value is below it |
| `Helpers.IgnoreOrGeq` | src/helpers.rs:24-26 | passes when the setting is zero or the value reaches it |
| `Helpers.IgnoreOrLeq` | src/helpers.rs:32-34 | passes when the setting is zero or the value does not exceed it |
| `Helpers.StrictAndWeakAreComplements` | src/helpers.rs:8-34 | with a non-zero setting "below" is the negation of "at least" and "above" that of "at most" |
| `Helpers.ScanAtLeast` | src/helpers.rs:45-53 | the loop's flag ends set exactly when it started set or some element reaches the setting |
| `Helpers.ScanAtMost` | src/helpers.rs:65-73 | the loop's flag ends set exactly when it started set or some element is at most the setting |
| `Helpers.IgnoreOrGeqVec` | src/helpers.rs:36-54 | passes exactly when the setting is zero or some element is at least it (`>=`, not the "greater than" of its comment) |
| `Helpers.IgnoreOrLeqVec` | src/helpers.rs:56-74 | passes exactly when the setting is zero or some element is at most it; an empty vector fails a non-zero setting |
| `Helpers.VecChecksIgnoreOrder` | src/helpers.rs:36-74 | permuting the vector never changes either answer |
| `Helpers.MatchInTwoVecs` | src/helpers.rs:76-88 | true exactly when the two vectors share an element |
| `Helpers.MatchIsSymmetric` | src/helpers.rs:76-88 | the answer does not depend on which vector is searched; an empty vector never matches |
| `RustFilter.AsI32` | src/filter.rs:53 | `as i32` keeps small counts and always lands in the i32 range |
| `RustFilter.AsU64` | src/filter.rs:100 | `as u64` keeps non-negative values and wraps negative ones to 2^64 plus the value |
| `RustFilter.IsOlder` | src/filter.rs:10-12 | older exactly when the map date precedes the minimum date |
| `RustFilter.IgnoreOrCompare` | src/filter.rs:19-21 | rejects exactly when the setting is non-zero and left < right |
| `RustFilter.IgnoreOrEquate` | src/filter.rs:24-26 | rejects exactly when the setting is non-zero and equals the value |
| `RustFilter.Message` | src/filter.rs:37-129 | a refusal text opens with "Map " exactly for the map's own properties, "Queue " exactly for the queue's state, "You " exactly for the user's limits |
| `RustFilter.FilterMap` | src/filter.rs:28-130 | panics exactly when not bypassed and the status read panics |
| `RustFilter.AdmitIff` | src/filter.rs:28-130 | admits exactly on a mod add, or an open queue with neither limit hit exactly and every map check passing |
| `RustFilter.ModaddBypass` | src/filter.rs:37-39 | `Some(true)` admits without consulting anything; `Some(false)` is the same as absent |
| `RustFilter.QueueStatusTexts` | src/filter.rs:42-49 | a closed queue and a failed status read give different rejections |
| `RustFilter.QueueLimitIsExact` | src/filter.rs:52-59 | the in-queue limit rejects exactly on equality; a failed lookup passes |
| `RustFilter.SessionLimitIsExact` | src/filter.rs:62-69 | the session limit rejects exactly on equality; an unknown user passes |
| `RustFilter.BanAndDateAreInverted` | src/filter.rs:72-95 | a map not blacklisted is rejected as banned; one uploaded on or after the earliest date as too old |
| `RustFilter.MinAgeRejectsEveryMap` | src/filter.rs:98-107 | with a non-zero minimum age and a representable subtraction every map reaching the check is too new, whatever its upload time |
| `RustFilter.LengthChecks` | src/filter.rs:110-123 | too short exactly when the duration is below the MAXIMUM (with a minimum set); too long when it exceeds the maximum |
| `Remote.AddKeyArgument` | main.go:75-79 | the argument is the key, followed by `?user=` and the requester exactly when there is one |
| `Remote.SlotsOf` | parser/main.go:119-121 | each entry is re-added as its key with its requester, in order |
| `Remote.AddAll` | parser/main.go:119-121 | one `addKey` per entry, in order, and nothing but appends |
| `Remote.ReplayAppends` | parser/main.go:119-121 | the `addKey` calls append their entries to the remote queue in order |
| `Remote.ClearThenAddAll` | parser/main.go:114-121 | clearing then re-adding leaves exactly the re-added entries, whatever was queued before |
| `Surgery.DropIndex` | parser/main.go:105-111 | the loop keeps everything except the element at the index, all of it for an index out of range |
| `Surgery.DropIndexShape` | parser/main.go:105-111 | one element shorter, earlier elements in place, later ones shifted, the multiset less the dropped element |
| `Surgery.Filter` | runner.go:216-220 | exactly the elements that pass are kept |
| `Surgery.FilterAppend` | runner.go:216-220 | filtering commutes with concatenation, so relative order is preserved |
| `Surgery.FilterKeepsAll` | runner.go:216-220 | when everything passes nothing changes |
| `Parser.LastKept` | parser/main.go:102-110 | the returned entry is the last kept one, or the zero map when nothing is kept |
| `Parser.ParseOops` | parser/main.go:91-128 | panics exactly when the snapshot does not decode or the user has no positions, having sent nothing |
| `Parser.Parse` | parser/main.go:13-135 | a panic while parsing happens before any mutating call |
| `Parser.OopsRebuild` | parser/main.go:104-121 | a successful undo clears once and re-adds every snapshot entry except the one at the last position, leaving exactly those remotely |
| `Parser.OopsAddArguments` | parser/main.go:119-121 | every re-add carries `key?user=User` of the kept entry of the same rank |
| `Parser.OopsOutcome` | parser/main.go:113-128 | success exactly when the last kept entry has a key, which is then handed back; otherwise nothing is sent and the no-requests error is returned |
| `Parser.OopsOfOnlyEntryFails` | parser/main.go:113-128 | undoing a user's only, single entry reports that they have no requests |
| `Parser.OopsReturnsKeptEntry` | parser/main.go:99-125 | with [A, B, C] and positions [0, 2], C goes and B is handed back as the removed entry |
| `Parser.OopsWithoutPositionsCrashes` | parser/main.go:100-101 | a user without positions panics before anything is sent |
| `Parser.MttMovesFirstPosition` | parser/main.go:40-44 | "mtt" moves the FIRST position to spot 1 and panics without positions |
| `Parser.QueueFallsThrough` | parser/main.go:63-69 | the Queue subcommand falls through to the argument error, like no subcommand at all |
| `Parser.ParseMutatingSubcommands` | parser/main.go:13-135 | only mtt, clear, oops and wip send a mutating call while parsing |
| `Runner.ParseBool` | runner.go:186 | the accepted true and false spellings of `strconv.ParseBool`, and an error for everything else |
| `Runner.New` | runner.go:31-48 | requests `clear/` then closes the remote queue, and no counter survives; dies exactly when a session with the same timestamp exists |
| `Runner.NewResetsAndCloses` | runner.go:31-48 | with a fresh timestamp "new" finishes, every user reads 0 and the queue reads closed |
| `Runner.Add` | runner.go:50-89 | a rejection finishes with its text and no call; an accepted map sends `key?user=user`, and with a positive limit the run dies; bans and sessions are untouched and the user ends with a counter row |
| `Runner.RejectedAddHasNoEffect` | runner.go:50-89 | a rejected add prints the rejection, sends nothing and writes no count (the read may create a 0 row) |
| `Runner.AcceptedAdd` | runner.go:50-89 | an accepted add enqueues `key?user=user`; without a limit it finishes, with a positive limit it always dies after enqueuing |
| `Runner.Mtt` | runner.go:91-102 | dies exactly when the user has no position; otherwise one move of the last position to spot 1; the store is untouched |
| `Runner.MttMovesLastPosition` | runner.go:91-102 | "mtt" moves the LAST position to spot 1 |
| `Runner.PositionListShape` | runner.go:128-139 | every position is followed by ", ", so the list always ends with ", " |
| `Runner.GetQueueMessage` | runner.go:115-148 | the text opens with the map count, and adds to it exactly when a user name is given |
| `Runner.GetQueueTexts` | runner.go:115-148 | the four "getqueue" texts: count only, no maps, one position, several positions ending in ", " |
| `Runner.Ban` | runner.go:150-158 | "ban" sends nothing remotely; it dies exactly when the key is already banned and otherwise records its hash |
| `Runner.Unban` | runner.go:160-168 | "unban" sends nothing remotely, dies exactly when the key is already banned, and otherwise leaves the key banned |
| `Runner.UnbanBans` | runner.go:160-168 | after "unban" the key is found in the ban table |
| `Runner.QueueStatus` | runner.go:170-180 | "queuestatus" only reads; it dies exactly on an empty session table, and otherwise reports "open" exactly when the newest session is open and "closed" exactly when it is not |
| `Runner.ToggleQueue` | runner.go:182-199 | "togglequeue" only updates the local store, and dies exactly on an empty session table |
| `Runner.ToggleQueuePersists` | runner.go:182-199 | the stored status becomes the negation without arguments, otherwise the parsed "status" argument, false when missing or unparsable |
| `Runner.Oops` | runner.go:201-223 | "oops" never writes the local store; it dies, before sending anything, exactly when the user has no position or more positions than the snapshot has entries |
| `Runner.OopsRebuild` | runner.go:201-223 | the queue is rebuilt from exactly the entries differing in key or requester from the entry at index `len(positions)-1` |
| `Runner.OopsRemovesWrongEntry` | runner.go:206-220 | with [A(u1), B(u2), C(u1)] and u1 at [0, 2], u2's B is the one removed |
| `Runner.Wip` | runner.go:104-113 | one addWip request carrying the id, then "?user" and the requester with no '=' between them; the store is untouched |
| `Runner.WipArgumentLacksEquals` | runner.go:104-113 | for the same id and user, runner.go's addWip argument is one character shorter than the one parser/main.go:48 sends, lacking the '=', so the two never agree |
| `Runner.RunCommands` | runner.go:29-226 | "getqueue" finishes with no call and no write; "wip" sends exactly one addWip request and writes nothing; any other unknown command name does nothing |
| `Runner.CommandFootprints` | runner.go:29-226 | only new, add, mtt, oops and wip call the remote queue; the read-only commands, wip and unknown names leave the store alone |
| `GoMain.Requester` | main.go:77-79 | the requester is forwarded exactly when the extra is a non-empty string |
| `GoMain.Main` | main.go:50-101 | a parse error or panic ends the program; the calls of the parse always come first |
| `GoMain.RejectedAddPrintsJson` | main.go:71-73 | a rejected add prints `{"message": "<error>"}` and sends and writes nothing |
| `GoMain.AcceptedAddSendsKey` | main.go:74-83 | an accepted add sends `key?user=name` or the bare key and prints the reply; the counter is not touched |
| `GoMain.BanAndUnban` | main.go:86-93 | "ban" is fatal exactly for an already-banned key, otherwise the key is found afterwards; "unban" lifts it |
| `GoMain.OtherCommandsEcho` | main.go:96-97 | every other command prints the reply body and writes nothing |
| `GoMain.QueueSubcommandIsFatal` | main.go:55-56 | the Queue subcommand ends the program |
| `RustMain.Pad2` | src/main.rs:24-34 | pads to two places with leading zeros, keeping the text as its suffix |
| `RustMain.TwoDigits` | src/main.rs:24-34 | a number under 100 as exactly two digits |
| `RustMain.FormatTime` | src/main.rs:24-34 | the text has at least "m:ss" |
| `RustMain.FormatTimeShape` | src/main.rs:24-34 | "h:mm:ss" with whole hours and "m:ss" without, minutes and seconds always two digits |
| `RustMain.FormatTimeReadsBack` | src/main.rs:24-34 | reading a rendered non-negative length back gives the length |
| `RustMain.ParseTime` | src/main.rs:24-34 | the reference reading of "m:ss" and "h:mm:ss" is never negative |
| `RustMain.New` | src/main.rs:36-59 | "new" always completes |
| `RustMain.NewOnlyOnEmptyHistory` | src/main.rs:36-59 | only an empty, successfully read history clears the remote queue and every counter; otherwise nothing happens |
| `RustMain.Join` | src/main.rs:93 | joining one part gives that part |
| `RustMain.JoinAppends` | src/main.rs:93 | one ", " between consecutive parts |
| `RustMain.SpotTexts` | src/main.rs:89-92 | one "spot (title)" per queue item, in order |
| `RustMain.TotalDuration` | src/main.rs:69-73 | zero for an empty queue; with non-negative durations, at least every single duration |
| `RustMain.TotalDurationIsSum` | src/main.rs:69-73 | the reported length is the sum of the durations, from either end |
| `RustMain.GetQueue` | src/main.rs:61-102 | "get_queue" sends nothing and writes nothing |
| `RustMain.GetQueueLines` | src/main.rs:61-102 | an empty queue prints "Queue is empty!"; otherwise the header and the user's part; a failed lookup of the user's items panics |
| `RustMain.YourMapsTexts` | src/main.rs:84-95 | the user's part is empty, one "spot (title)", or all of them joined by ", " |
| `RustMain.SetQueue` | src/main.rs:104-112 | one status request, and a line exactly when it fails |
| `RustMain.QueueCommand` | src/main.rs:114-124 | always completes without touching the store |
| `RustMain.QueueCommandWords` | src/main.rs:114-124 | open and close set the flag, toggle negates the reported one, any other word prints the usage |
| `RustMain.Request` | src/main.rs:138-178 | a request never adds or removes a counter row and never touches the sessions |
| `RustMain.AdmittedRequest` | src/main.rs:138-178 | an admitted request enqueues once; a known user's count goes up by one and the number used is reported as "left"; an unknown user stays unknown and is told `session_max - 1` |
| `RustMain.RefusedRequest` | src/main.rs:147-176 | a refused request prints the filter's message and changes nothing; a mod add is never refused |
| `RustMain.UnknownUserStaysUnlimited` | src/main.rs:158-171 | an unknown user never gains a counter row |
| `RustMain.MoveToTop` | src/main.rs:205-217 | "move_to_top" never writes the store |
| `RustMain.MoveToTopMovesLast` | src/main.rs:205-217 | the user's LAST queue item is moved to spot 1 |
| `RustMain.Oops` | src/main.rs:219-281 | a refund is signalled only after exactly one removal request |
| `RustMain.OopsRemovals` | src/main.rs:219-281 | nothing is removed for an empty queue, a user owning no entry, or an id not among theirs; an id they own is removed and refunded exactly when the removal is reported |
| `RustMain.OopsWithoutIdRemovesLast` | src/main.rs:250-264 | without an id the key of the user's last queue item is removed |
| `RustMain.RefundRequest` | src/main.rs:294-305 | a refund sends nothing |
| `RustMain.RefundHasNoFloor` | src/main.rs:294-305 | a known user's count drops by one, to -1 from 0; otherwise the store is unchanged |
| `RustMain.OopsCommand` | src/main.rs:361-366 | the remote calls are those of `oops`; sessions, the set of counted users and every other user's counter are unchanged |
| `RustMain.OopsCommandRefundsOnRemoval` | src/main.rs:361-366 | the refund runs exactly when "oops" reported a removal |
| `UnixEpoch.UnmarshalJSON` | utils/unixepoch.go:18-26 | fails exactly on text that is not `null` or an int64 literal, leaving the time unchanged; success always yields whole seconds |
| `UnixEpoch.MarshalJSON` | utils/unixepoch.go:29-31 | the output is never empty |
| `UnixEpoch.DecodeInt64` | utils/unixepoch.go:19-20 | a decoded number fits in an int64 |
| `UnixEpoch.RenderedIsJsonInteger` | utils/unixepoch.go:30 | the `%d` rendering is a JSON integer that reads back as the same value |
| `UnixEpoch.TrimPadded` | utils/unixepoch.go:20 | whitespace around a value is ignored |
| `UnixEpoch.MarshalThenUnmarshal` | utils/unixepoch.go:18-31 | decoding an encoded time keeps the whole seconds and drops the nanoseconds |
| `UnixEpoch.UnmarshalPadded` | utils/unixepoch.go:18-26 | an in-range integer literal, with whitespace around it, decodes to that many whole seconds |
| `UnixEpoch.RenderLiteral` | utils/unixepoch.go:30 | rendering the value of an integer literal gives the literal, except "-0" |
| `UnixEpoch.UnmarshalThenMarshal` | utils/unixepoch.go:18-31 | encoding a decoded integer literal gives the literal back, "-0" becoming "0" |
| `UnixEpoch.NullSetsEpoch` | utils/unixepoch.go:18-26 | `null` succeeds and sets the epoch, whatever the time held |
| `UnixEpoch.NonIntegerTextIsRejected` | utils/unixepoch.go:19-23 | text with a fraction, exponent, string or other literal, and empty text, is rejected |
| `UnixEpoch.OutOfRangeIsRejected` | utils/unixepoch.go:19-23 | an integer outside the int64 range is rejected |

## Left out

- HTTP transport to the queue service. drm/utils.go is not part of this model. Every request either answers, and its reply is an input, or fails where the Rust code handles that. In Go a transport error panics through `PanicOnError`, and that path is not modelled.
- SQL engine failures other than the ones the statements provoke themselves (constraint violations, the malformed `add_user_requests`). Opening, initialising and closing the database are not modelled either.
- Loading configuration (config/main.go, src/config.rs) and command-line parsing (go-arg, clap). The parsed values are inputs. src/config.rs's copy of `ignore_config` is the same function as `Helpers.IgnoreConfig`.
- `add_wip` in src/main.rs: the Rust work-in-progress upload path is not part of the admission core. The Go "wip" command is modelled only as the single request it forwards; the reply body is not interpreted.
- Rust commands `clear_queue`, `get_link`, `remove`, `ban`, `unban` and `version` (src/main.rs:126-136, 307-319 and the rest of `main`'s dispatch). They are outside the admission and undo paths this model covers. `clear_queue` clears the remote queue and also deletes every `SessionRequests` row; `ban` and `unban` forward one request and panic through `todo!()` when it fails.
- The Clear subcommand's `queue.json` write. Only whether a snapshot was saved is kept (`QueueBytes`).
- Lines printed as progress messages, and the debug prints of `main` before dispatch.
- Go's `%f` float rendering and the date layouts of errors.go and src/filter.rs. They are parameters (`Formatters`, `Clock`).
- GoFilter.FilterMap: the age test is taken in whole seconds. The source's float `time.Duration` comparison and its rounding are not modelled, and NaN bounds are out of scope (NJS and NPS are reals).
- RustMain.TotalDuration and RustMain.Request: i32 overflow of the summed durations and of `count + 1` is not modelled. The arithmetic is unbounded.
- Helpers: the generic functions are modelled at integers only. Nothing in the source calls them: src/filter.rs imports `ignore_config` from the configuration module and defines its own `ignore_or_compare` and `ignore_or_equate` (src/filter.rs:4-26), which `RustFilter` models.
- Runner.Add: runner.go calls a `FilterMap` whose arity differs from the one filters.go defines. The verdict is therefore taken as an input rather than computed, and the parsed `modadd` flag, which only feeds that call, is not modelled.

## Where the code departs from its comments or evident intent

The model follows the code in each case:

- runner.go:126-145: "getqueue" never emits its trailing "and N.". The test `idx < len(positions)` at runner.go:132 always holds inside the loop, so the branch at runner.go:135 is dead and every position is followed by ", ".
- runner.go:160-165: "unban" calls `database.BanMap`, so it bans the map again, and dies when the map is already banned, while printing that the map can be requested again.
- filters.go:32-58: a map without difficulties fails the NJS check even when both NJS bounds are 0. The flag starts false and only a difficulty can set it.
- runner.go:210: "oops" indexes the snapshot by the number of the user's positions minus one, so a user with no positions, or with more positions than the snapshot has entries, panics.
- runner.go:31-48: a second "new" within the same second dies on the session table's primary key, after the remote queue was already cleared and closed.
- parser/main.go:100-101: undoing for a user with no positions indexes `userRequests[-1]` and panics. "No requests in the queue" is returned only when the last kept entry has an empty key.
- database/main.go:39-44: banning an id twice is fatal, because `BanMap` is a plain INSERT into a primary key.
- src/database.rs:50-78: `new_session` stores an i64 timestamp that `get_queue_status` reads back into an `i32`, so the read panics for any session from 2038-01-19 on.

=== FILE: decimal.dfy ===
/** Decimal rendering and reading of integers, as done by Go's `%d`, Rust's `{}`
    and the integer grammar of section 6 of RFC 8259. */
module Decimal {

  predicate IsDigit(c: char) {
    '0' <= c <= '9'
  }

  predicate AllDigits(s: string) {
    forall i :: 0 <= i < |s| ==> IsDigit(s[i])
  }

  /** A non-empty digit string without a superfluous leading zero. */
  predicate Canonical(s: string) {
    && |s| > 0
    && AllDigits(s)
    && (s[0] == '0' ==> |s| == 1)
  }

  /** A concatenation of texts splits back into its parts. */
  lemma Split(a: string, b: string)
    ensures (a + b)[..|a|] == a && (a + b)[|a|..] == b
  {
  }

  function DigitChar(d: nat): (c: char)
    requires d < 10
    ensures IsDigit(c)
  {
    ('0' as int + d) as char
  }

  function DigitValue(c: char): (d: nat)
    requires IsDigit(c)
    ensures d < 10 && DigitChar(d) == c
  {
    c as int - '0' as int
  }

  /** Base-ten digits of `n`, most significant first. */
  function NatToString(n: nat): (s: string)
    ensures Canonical(s)
    ensures s == "0" <==> n == 0
    decreases n
  {
    if n < 10 then [DigitChar(n)]
    else
      var prefix := NatToString(n / 10);
      prefix + [DigitChar(n % 10)]
  }

  /** Signed rendering: a '-' before the digits of the magnitude. */
  function IntToString(i: int): (s: string)
    ensures |s| > 0
    ensures i < 0 <==> s[0] == '-'
    ensures i >= 0 ==> Canonical(s)
    ensures i < 0 ==> Canonical(s[1..]) && s[1] != '0'
  {
    if i < 0 then "-" + NatToString(-i) else NatToString(i)
  }

  /** The value of a digit string (the empty string reads as 0). */
  function DigitsValue(s: string): nat
    requires AllDigits(s)
    decreases |s|
  {
    if |s| == 0 then 0
    else DigitsValue(s[..|s| - 1]) * 10 + DigitValue(s[|s| - 1])
  }

  lemma {:induction false} ReadRendered(n: nat)
    ensures DigitsValue(NatToString(n)) == n
    decreases n
  {
    var s := NatToString(n);
    if n >= 10 {
      ReadRendered(n / 10);
      assert s[..|s| - 1] == NatToString(n / 10);
    }
  }

  lemma {:induction false} LeadingNonZeroIsPositive(s: string)
    requires |s| > 0 && AllDigits(s) && s[0] != '0'
    ensures DigitsValue(s) > 0
    decreases |s|
  {
    if |s| > 1 {
      LeadingNonZeroIsPositive(s[..|s| - 1]);
    }
  }

  /** Every canonical digit string is the rendering of its value. */
  lemma {:induction false} RenderRead(s: string)
    requires Canonical(s)
    ensures NatToString(DigitsValue(s)) == s
    decreases |s|
  {
    var n := DigitsValue(s);
    if |s| == 1 {
      assert s[..|s| - 1] == [];
      assert DigitsValue(s[..|s| - 1]) == 0;
    } else {
      var prefix := s[..|s| - 1];
      assert Canonical(prefix);
      LeadingNonZeroIsPositive(prefix);
      RenderRead(prefix);
      assert n / 10 == DigitsValue(prefix) && n % 10 == DigitValue(s[|s| - 1]);
      assert s == prefix + [s[|s| - 1]];
    }
  }

  /** Rendering is injective. */
  lemma NatToStringInjective(a: nat, b: nat)
    requires NatToString(a) == NatToString(b)
    ensures a == b
  {
    ReadRendered(a);
    ReadRendered(b);
  }

  /** Whole hours, the minutes below 60 and the seconds below 60 add back up to a length. */
  lemma HoursMinutesSeconds(d: nat)
    ensures (d / 3600) * 3600 + (d / 60 % 60) * 60 + d % 60 == d
    ensures d / 3600 == 0 ==> (d / 60) * 60 + d % 60 == d
  {
    var q := d / 60;
    assert d == 60 * q + d % 60;
    assert q == 60 * (q / 60) + q % 60;
    assert q / 60 == d / 3600;
  }

  /** Integer division truncating toward zero, as `/` in Go and Rust. */
  function Quot(a: int, b: int): (q: int)
    requires b != 0
    ensures a >= 0 && b > 0 ==> q == a / b
    ensures a <= 0 && b > 0 ==> q == -((-a) / b)
  {
    var magnitude := (if a >= 0 then a else -a) / (if b > 0 then b else -b);
    if (a >= 0) == (b > 0) then magnitude else -magnitude
  }

  /** The remainder that goes with `Quot`, as `%` in Go and Rust: it takes the sign of `a`. */
  function Rem(a: int, b: int): (r: int)
    requires b != 0
    ensures a == b * Quot(a, b) + r
    ensures a >= 0 && b > 0 ==> r == a % b
    ensures a >= 0 ==> 0 <= r
    ensures a <= 0 ==> r <= 0
  {
    a - b * Quot(a, b)
  }
}

=== FILE: effects.dfy ===
/** What one command invocation leaves behind. */
module Effects {
  import Remote
  import GoStore
  import RustStore

  /** A Go command either runs to its end, having issued `calls` to the remote
      queue and printed `message`, or the process dies part-way; calls and store
      writes made before the crash are not rolled back. */
  datatype GoOutcome =
    | Finished(calls: seq<Remote.Call>, message: string, store: GoStore.Store)
    | Crashed(calls: seq<Remote.Call>, store: GoStore.Store)

  /** A Rust command runs to its end, printing `lines`, or panics part-way. */
  datatype RustOutcome =
    | Completed(calls: seq<Remote.Call>, lines: seq<string>, store: RustStore.Store)
    | Panicked(calls: seq<Remote.Call>, store: RustStore.Store)
}

=== FILE: errors.dfy ===
/** The typed rejections of errors.go and their `Error()` texts. */
module Errors {
  import opened Decimal

  datatype Rejection =
    | NotInNJSRange(minNJS: real, maxNJS: real)
    | NotInNPSRange(minNPS: real, maxNPS: real)
    | OlderThanOldestDate(date: int)
    | NewMap(date: int)
    | BannedMap(id: string)
    | MapTooShort(len: int)
    | MapTooLong(len: int)

  /** Renderings this model takes as given: Go's `%f` of a float64 and its
      "2006 January 2" layout of a time (seconds since the epoch). */
  datatype Formatters = Formatters(float: real -> string, date: int -> string)

  /** `(len/60)%60` and `len%60` with Go's truncating operators, joined by ':' without padding. */
  function LengthText(len: int): (text: string)
    ensures len >= 0 ==> text == NatToString(len / 60 % 60) + ":" + NatToString(len % 60)
  {
    assert len >= 0 ==> Quot(len, 60) == len / 60 && Rem(len / 60, 60) == len / 60 % 60 && Rem(len, 60) == len % 60;
    IntToString(Rem(Quot(len, 60), 60)) + ":" + IntToString(Rem(len, 60))
  }

  /** `Error()` of each rejection: every text but the ban's speaks of "map ...";
      the ban's text starts with the id itself. */
  function Error(e: Rejection, f: Formatters): (text: string)
    ensures !e.BannedMap? ==> |text| > 4 && text[..4] == "map "
    ensures e.BannedMap? ==> |text| >= |e.id| && text[..|e.id|] == e.id && text[|e.id|..] == " is banned from being requested"
  {
    match e
    case BannedMap(id) =>
      Split(id, " is banned from being requested");
      id + " is banned from being requested"
    case _ =>
      var rest := Complaint(e, f);
      Split("map ", rest);
      "map " + rest
  }

  /** What follows "map " in every text but the ban's. */
  function Complaint(e: Rejection, f: Formatters): string
    requires !e.BannedMap?
  {
    match e
    case NotInNJSRange(lo, hi) =>
      "does not have a difficulty between " + f.float(lo) + " and " + f.float(hi) + " NJS"
    case NotInNPSRange(lo, hi) =>
      "does not have a difficulty between " + f.float(lo) + " and " + f.float(hi) + " NPS"
    case OlderThanOldestDate(date) => "is too old, was uploaded on " + f.date(date)
    case NewMap(date) => "is too new, was uploaded on " + f.date(date)
    case MapTooShort(len) => "is too short" + LengthSuffix(len)
    case MapTooLong(len) => "is too long" + LengthSuffix(len)
  }

  /** The " (length m:s)" ending both length texts share. */
  function LengthSuffix(len: int): string {
    " (length " + LengthText(len) + ")"
  }

  /** Reading a non-negative length's text back, as minutes before the ':' and
      seconds after it, gives the length less its whole hours. */
  lemma LengthTextReadsBack(len: int)
    requires len >= 0
    ensures var text, i := LengthText(len), |NatToString(len / 60 % 60)|;
      && 0 < i < |text| && text[i] == ':'
      && AllDigits(text[..i]) && AllDigits(text[i + 1..])
      && DigitsValue(text[..i]) * 60 + DigitsValue(text[i + 1..]) == len % 3600
      && DigitsValue(text[..i]) < 60 && DigitsValue(text[i + 1..]) < 60
  {
    var m, sec := len / 60 % 60, len % 60;
    var text, i := LengthText(len), |NatToString(m)|;
    Split(NatToString(m), ":" + NatToString(sec));
    Split(":", NatToString(sec));
    assert text[..i] == NatToString(m);
    assert text[i + 1..] == text[i..][1..];
    assert text[i + 1..] == NatToString(sec);
    ReadRendered(m);
    ReadRendered(sec);
    HoursMinutesSeconds(len);
    assert len % 3600 == len - (len / 3600) * 3600;
  }

  /** The banned text is the id followed by a fixed phrase. */
  lemma BannedText(id: string, f: Formatters)
    ensures Error(BannedMap(id), f)[..|id|] == id
    ensures Error(BannedMap(id), f)[|id|..] == " is banned from being requested"
  {
  }

  /** 65 seconds render as "1:5": no zero padding. */
  lemma SixtyFiveSeconds(f: Formatters)
    ensures Error(MapTooShort(65), f) == "map is too short (length 1:5)"
  {
    assert LengthText(65) == "1:5" by {
      assert NatToString(1) == "1" && NatToString(5) == "5";
    }
    assert LengthSuffix(65) == " (length 1:5)";
    assert "map " + "is too short" == "map is too short";
    assert "map is too short" + " (length 1:5)" == "map is too short (length 1:5)";
  }

  /** Whole hours vanish from the length texts. */
  lemma HoursAreDropped(len: int, f: Formatters)
    requires len >= 0
    ensures Error(MapTooShort(len), f) == Error(MapTooShort(len + 3600), f)
    ensures Error(MapTooLong(len), f) == Error(MapTooLong(len + 3600), f)
  {
    assert (len + 3600) / 60 == len / 60 + 60;
    assert ((len + 3600) / 60) % 60 == (len / 60) % 60;
    assert (len + 3600) % 60 == len % 60;
  }

  /** "map " before a word and a tail regroups as the joined phrase and the tail. */
  lemma Regroup(word: string, phrase: string, tail: string)
    requires "map " + word == phrase
    ensures "map " + (word + tail) == phrase + tail
  {
  }

  /** The two length texts, each split at the end of its word. */
  lemma LengthTexts(len: int, f: Formatters)
    ensures Error(MapTooShort(len), f) == "map is too short" + LengthSuffix(len)
    ensures Error(MapTooLong(len), f) == "map is too long" + LengthSuffix(len)
  {
    var tail := LengthSuffix(len);
    assert Error(MapTooShort(len), f) == "map " + Complaint(MapTooShort(len), f);
    assert Complaint(MapTooShort(len), f) == "is too short" + tail;
    assert Error(MapTooLong(len), f) == "map " + Complaint(MapTooLong(len), f);
    assert Complaint(MapTooLong(len), f) == "is too long" + tail;
    Regroup("is too short", "map is too short", tail);
    Regroup("is too long", "map is too long", tail);
  }

  /** For the same length, the too-short and too-long texts share their opening
      "map is too " and everything after the word "short" or "long". */
  lemma ShortAndLongDifferInOneWord(len: int, f: Formatters)
    ensures Error(MapTooShort(len), f)[..11] == Error(MapTooLong(len), f)[..11] == "map is too "
    ensures Error(MapTooShort(len), f)[16..] == Error(MapTooLong(len), f)[15..]
    ensures Error(MapTooShort(len), f)[11..16] == "short" && Error(MapTooLong(len), f)[11..15] == "long"
  {
    var tail := LengthSuffix(len);
    var short, long := Error(MapTooShort(len), f), Error(MapTooLong(len), f);
    LengthTexts(len, f);
    Split("map is too short", tail);
    Split("map is too long", tail);
    assert short[..16] == "map is too short" && long[..15] == "map is too long";
    assert short[..11] == short[..16][..11];
    assert long[..11] == long[..15][..11];
    assert short[11..16] == short[..16][11..];
    assert long[11..15] == long[..15][11..];
  }

  /** For the same bounds, the NJS and NPS texts have the same length and agree
      everywhere except in their last three characters, the unit. */
  lemma RangeTextsDifferInUnit(lo: real, hi: real, f: Formatters)
    ensures var njs := Error(NotInNJSRange(lo, hi), f);
      var nps := Error(NotInNPSRange(lo, hi), f);
      && |njs| == |nps| >= 3
      && njs[..|njs| - 3] == nps[..|nps| - 3]
      && njs[|njs| - 3..] == "NJS" && nps[|nps| - 3..] == "NPS"
      && njs != nps
  {
  }
}

=== FILE: go_filter.dfy ===
/** `FilterMap` of filters.go: ban, cutoff date, minimum age, then the NJS/NPS
    "some difficulty in range" checks, stopping at the first failure. The
    configuration and the clock are parameters; the ban lookup goes to the store. */
module GoFilter {
  import opened Wrappers
  import opened Schema
  import opened Errors
  import GoStore

  datatype NoteLimits = NoteLimits(minNJS: real, maxNJS: real, minNPS: real, maxNPS: real)

  /** config/model.go's `BSRConfig`; `newerThan` is midnight UTC of the configured date, in seconds. */
  datatype BsrConfig = BsrConfig(
    minLength: int,
    maxLength: int,
    requestLimit: int,
    newerThan: int,
    mapAge: int,
    noteLimits: NoteLimits)

  const SecondsPerDay := 86400

  /** `maxNJS == 0 || minNJS <= njs && njs <= maxNJS` (Go's `&&` binds tighter than `||`). */
  predicate NjsInRange(d: Difficulty, l: NoteLimits) {
    l.maxNJS == 0.0 || (l.minNJS <= d.njs && d.njs <= l.maxNJS)
  }

  predicate NpsInRange(d: Difficulty, l: NoteLimits) {
    l.maxNPS == 0.0 || (l.minNPS <= d.nps && d.nps <= l.maxNPS)
  }

  datatype Flags = Flags(nps: bool, njs: bool)

  /** The difficulty loop: each flag is set by a difficulty in range and never reset. */
  function ScanDiffs(diffs: seq<Difficulty>, l: NoteLimits, passed: Flags): (r: Flags)
    ensures r.njs <==> passed.njs || exists i :: 0 <= i < |diffs| && NjsInRange(diffs[i], l)
    ensures r.nps <==> passed.nps || exists i :: 0 <= i < |diffs| && NpsInRange(diffs[i], l)
    decreases |diffs|
  {
    if |diffs| == 0 then passed
    else
      var d := diffs[0];
      var rest := ScanDiffs(diffs[1..], l, Flags(passed.nps || NpsInRange(d, l), passed.njs || NjsInRange(d, l)));
      assert forall i :: 1 <= i < |diffs| ==> diffs[i] == diffs[1..][i - 1];
      rest
  }

  /** `FilterMap`: the map comes back unchanged together with the first rejection, if any. */
  function FilterMap(m: MapData, db: GoStore.Store, cfg: BsrConfig, now: int): (r: (MapData, Option<Rejection>))
    ensures r.0 == m
  {
    var l := cfg.noteLimits;
    if GoStore.FindBannedMap(db, m.key) then (m, Some(BannedMap(m.key)))
    else if m.uploadTime < cfg.newerThan then (m, Some(OlderThanOldestDate(m.uploadTime)))
    else if now - m.uploadTime < cfg.mapAge * SecondsPerDay then (m, Some(NewMap(m.uploadTime)))
    else
      var passed := ScanDiffs(m.diffs, l, Flags(false, false));
      if !passed.njs then (m, Some(NotInNJSRange(l.minNJS, l.maxNJS)))
      else if !passed.nps then (m, Some(NotInNPSRange(l.minNPS, l.maxNPS)))
      else (m, None)
  }

  /** The admission rule stated independently of the chain's order. */
  predicate Admissible(m: MapData, db: GoStore.Store, cfg: BsrConfig, now: int) {
    var l := cfg.noteLimits;
    && m.key !in db.banned
    && cfg.newerThan <= m.uploadTime
    && m.uploadTime + cfg.mapAge * SecondsPerDay <= now
    && (exists i :: 0 <= i < |m.diffs| && NjsInRange(m.diffs[i], l))
    && (exists j :: 0 <= j < |m.diffs| && NpsInRange(m.diffs[j], l))
  }

  /** A map is accepted exactly when it is admissible. */
  lemma AcceptedIffAdmissible(m: MapData, db: GoStore.Store, cfg: BsrConfig, now: int)
    ensures FilterMap(m, db, cfg, now).1.None? <==> Admissible(m, db, cfg, now)
  {
  }

  /** A banned key is rejected as banned whatever its date or difficulties. */
  lemma BanComesFirst(m: MapData, db: GoStore.Store, cfg: BsrConfig, now: int)
    requires m.key in db.banned
    ensures FilterMap(m, db, cfg, now).1 == Some(BannedMap(m.key))
  {
  }

  /** The cutoff is strict: an upload exactly at the cutoff passes it, one second earlier does not. */
  lemma CutoffIsStrict(m: MapData, db: GoStore.Store, cfg: BsrConfig, now: int)
    requires m.key !in db.banned
    ensures m.uploadTime == cfg.newerThan ==> FilterMap(m, db, cfg, now).1 != Some(OlderThanOldestDate(m.uploadTime))
    ensures m.uploadTime < cfg.newerThan ==> FilterMap(m, db, cfg, now).1 == Some(OlderThanOldestDate(m.uploadTime))
  {
  }

  /** Past the ban and the cutoff, the map is too new iff fewer than `mapAge` days have elapsed;
      with `mapAge` 0, a map uploaded no later than now never is. */
  lemma AgeCheck(m: MapData, db: GoStore.Store, cfg: BsrConfig, now: int)
    requires m.key !in db.banned && cfg.newerThan <= m.uploadTime
    ensures FilterMap(m, db, cfg, now).1 == Some(NewMap(m.uploadTime)) <==> now - m.uploadTime < cfg.mapAge * SecondsPerDay
    ensures cfg.mapAge == 0 && m.uploadTime <= now ==> !FilterMap(m, db, cfg, now).1.Some? || !FilterMap(m, db, cfg, now).1.value.NewMap?
  {
  }

  /** Without difficulties the NJS check fails even when every bound is 0. */
  lemma NoDifficultiesFailNjs(m: MapData, db: GoStore.Store, cfg: BsrConfig, now: int)
    requires |m.diffs| == 0
    requires m.key !in db.banned && cfg.newerThan <= m.uploadTime
    requires m.uploadTime + cfg.mapAge * SecondsPerDay <= now
    ensures FilterMap(m, db, cfg, now).1 == Some(NotInNJSRange(cfg.noteLimits.minNJS, cfg.noteLimits.maxNJS))
  {
  }

  /** When both note checks fail the NJS rejection is the one reported. */
  lemma NjsReportedBeforeNps(m: MapData, db: GoStore.Store, cfg: BsrConfig, now: int)
    requires m.key !in db.banned && cfg.newerThan <= m.uploadTime
    requires m.uploadTime + cfg.mapAge * SecondsPerDay <= now
    requires forall i :: 0 <= i < |m.diffs| ==> !NjsInRange(m.diffs[i], cfg.noteLimits)
    ensures FilterMap(m, db, cfg, now).1 == Some(NotInNJSRange(cfg.noteLimits.minNJS, cfg.noteLimits.maxNJS))
  {
  }

  /** NJS and NPS may be satisfied by different difficulties. */
  lemma DifferentDifficultiesMaySatisfy(db: GoStore.Store, cfg: BsrConfig, now: int, key: string)
    requires cfg.noteLimits == NoteLimits(10.0, 20.0, 1.0, 5.0)
    requires key !in db.banned && cfg.newerThan <= 0 && cfg.mapAge * SecondsPerDay <= now
    ensures var m := MapData(key, "", "", 0, 0, [Difficulty(15.0, 9.0), Difficulty(30.0, 3.0)]);
      FilterMap(m, db, cfg, now).1.None?
  {
    var m := MapData(key, "", "", 0, 0, [Difficulty(15.0, 9.0), Difficulty(30.0, 3.0)]);
    assert NjsInRange(m.diffs[0], cfg.noteLimits);
    assert NpsInRange(m.diffs[1], cfg.noteLimits);
  }

  /** The duration (and the length limits) play no part in the verdict. */
  lemma DurationIgnored(m: MapData, d: int, db: GoStore.Store, cfg: BsrConfig, now: int, lo: int, hi: int)
    ensures FilterMap(m, db, cfg, now).1 == FilterMap(m.(duration := d), db, cfg.(minLength := lo, maxLength := hi), now).1
  {
  }
}

=== FILE: go_main.dfy ===
/** `main` of main.go after configuration and database setup: a parse error is
    fatal, then the command name selects what is done with the reply body. */
module GoMain {
  import opened Wrappers
  import opened Schema
  import opened Remote
  import opened Errors
  import opened Effects
  import GoStore
  import GoFilter
  import Parser

  /** The reply body `Parse` handed on: its raw text, and what `json.Unmarshal`
      fills into a `drm.MapData` from it (the decode error is ignored, so a body
      that is not a map leaves whatever fields did not decode at their zero value). */
  datatype Response = Response(text: string, decoded: MapData)

  /** The requester the add forwards: only a non-empty string extra counts. */
  function Requester(extra: Parser.Extra): (user: Option<string>)
    ensures user.Some? <==> extra.Text? && extra.text != ""
    ensures user.Some? ==> user.value == extra.text
  {
    if extra.Text? && extra.text != "" then Some(extra.text) else None
  }

  /** `main`. Calls made while parsing come first in the trace; `addKeyReply` is
      the body the `addKey` endpoint answers, which is printed as is. */
  function Main(parsed: Parser.Parsed, res: Response, db: GoStore.Store, cfg: GoFilter.BsrConfig,
                now: int, f: Formatters, addKeyReply: string): (r: GoOutcome)
    ensures parsed.ParseCrash? || parsed.err.Some? ==> r == Crashed(parsed.calls, db)
    ensures |r.calls| >= |parsed.calls| && r.calls[..|parsed.calls|] == parsed.calls
  {
    if parsed.ParseCrash? || parsed.err.Some? then Crashed(parsed.calls, db)
    else
      var sent := parsed.calls;
      match parsed.command
      case "add" =>
        var (m, rejection) := GoFilter.FilterMap(res.decoded, db, cfg, now);
        (match rejection
         case Some(e) => Finished(sent, "{\"message\": \"" + Error(e, f) + "\"}", db)
         case None => Finished(sent + [AddKey(m.key, Requester(parsed.extra))], addKeyReply, db))
      case "ban" =>
        (match GoStore.BanMap(db, res.decoded.key, res.decoded.hash)
         case Fatal => Crashed(sent, db)
         case Done(s, _) => Finished(sent, "", s))
      case "unban" => Finished(sent, "", GoStore.UnbanMap(db, res.decoded.key))
      case _ => Finished(sent, res.text, db)
  }

  /** A Go outcome that neither crashed nor sent anything beyond the parse. */
  predicate Quiet(r: GoOutcome, parsed: Parser.Parsed) {
    r.Finished? && r.calls == parsed.calls
  }

  // ---- Properties ----

  /** A rejected add prints the rejection wrapped in a JSON object and sends nothing. */
  lemma RejectedAddPrintsJson(parsed: Parser.Parsed, res: Response, db: GoStore.Store, cfg: GoFilter.BsrConfig,
                              now: int, f: Formatters, reply: string, e: Rejection)
    requires parsed.Parsed? && parsed.err.None? && parsed.command == "add"
    requires GoFilter.FilterMap(res.decoded, db, cfg, now).1 == Some(e)
    ensures var r := Main(parsed, res, db, cfg, now, f, reply);
      && Quiet(r, parsed)
      && r.message == "{\"message\": \"" + Error(e, f) + "\"}"
      && r.store == db
  {
  }

  /** An accepted add sends `key?user=name` when the extra is a non-empty string
      and the bare key otherwise, prints the service's reply, and never touches
      the request counters. */
  lemma AcceptedAddSendsKey(parsed: Parser.Parsed, res: Response, db: GoStore.Store, cfg: GoFilter.BsrConfig,
                            now: int, f: Formatters, reply: string)
    requires parsed.Parsed? && parsed.err.None? && parsed.command == "add"
    requires GoFilter.FilterMap(res.decoded, db, cfg, now).1.None?
    ensures var r := Main(parsed, res, db, cfg, now, f, reply);
      var call := r.calls[|r.calls| - 1];
      && r.Finished? && |r.calls| == |parsed.calls| + 1
      && call.AddKey?
      && (parsed.extra.Text? && parsed.extra.text != "" ==>
            AddKeyArgument(call.key, call.user) == res.decoded.key + "?user=" + parsed.extra.text)
      && (!(parsed.extra.Text? && parsed.extra.text != "") ==>
            AddKeyArgument(call.key, call.user) == res.decoded.key)
      && r.message == reply
      && r.store == db
  {
  }

  /** "ban" bans the decoded key (fatal when already banned); "unban" lifts it. */
  lemma BanAndUnban(parsed: Parser.Parsed, res: Response, db: GoStore.Store, cfg: GoFilter.BsrConfig,
                    now: int, f: Formatters, reply: string)
    requires parsed.Parsed? && parsed.err.None?
    ensures var r := Main(parsed, res, db, cfg, now, f, reply);
      && (parsed.command == "ban" ==>
            (res.decoded.key in db.banned <==> r.Crashed?)
            && (r.Finished? ==> GoStore.FindBannedMap(r.store, res.decoded.key)))
      && (parsed.command == "unban" ==>
            Quiet(r, parsed) && !GoStore.FindBannedMap(r.store, res.decoded.key))
  {
    if parsed.command == "ban" && res.decoded.key !in db.banned {
      GoStore.BanThenFind(db, res.decoded.key, res.decoded.hash, res.decoded.hash);
    }
    if parsed.command == "unban" {
      GoStore.UnbanThenFind(db, res.decoded.key);
    }
  }

  /** Every other command prints the reply body unchanged and writes nothing. */
  lemma OtherCommandsEcho(parsed: Parser.Parsed, res: Response, db: GoStore.Store, cfg: GoFilter.BsrConfig,
                          now: int, f: Formatters, reply: string)
    requires parsed.Parsed? && parsed.err.None?
    requires parsed.command !in {"add", "ban", "unban"}
    ensures var r := Main(parsed, res, db, cfg, now, f, reply);
      Quiet(r, parsed) && r.message == res.text && r.store == db
  {
  }

  /** The Queue subcommand is fatal for the whole program. */
  lemma QueueSubcommandIsFatal(status: bool, replies: Parser.Replies, argv: string, res: Response,
                               db: GoStore.Store, cfg: GoFilter.BsrConfig, now: int, f: Formatters, reply: string)
    ensures Main(Parser.Parse(Parser.Queue(status), replies, argv), res, db, cfg, now, f, reply) == Crashed([], db)
  {
  }
}

=== FILE: go_store.dfy ===
/** The SQLite store of database/main.go as three tables:
    `banned(id PRIMARY KEY, hash)`, `reqlimits(username PRIMARY KEY, requests)`
    and `queueStatus(timestamp PRIMARY KEY, status)`. Every statement error goes
    through `PanicOnError`, which ends the process: that is the `Fatal` step. */
module GoStore {
  import SessionLog

  datatype Store = Store(
    banned: map<string, string>,
    reqLimits: map<string, int>,
    queueStatus: SessionLog.Log)

  /** The result of a statement: the store it leaves and the value it reads, or a fatal error. */
  datatype Step<T> = Done(store: Store, value: T) | Fatal

  /** `NewSession`: INSERT of a closed row; a timestamp already present violates the primary key. */
  function NewSession(db: Store, timestamp: int): (r: Step<()>)
    ensures r.Done? <==> timestamp !in db.queueStatus
    ensures r.Done? ==> r.store.queueStatus.Keys == db.queueStatus.Keys + {timestamp}
    ensures r.Done? ==> r.store.queueStatus[timestamp] == false
    ensures r.Done? ==> r.store.banned == db.banned && r.store.reqLimits == db.reqLimits
  {
    if timestamp in db.queueStatus then Fatal
    else Done(db.(queueStatus := db.queueStatus[timestamp := false]), ())
  }

  /** `BanMap`: INSERT, so banning an id twice is a primary-key violation. */
  function BanMap(db: Store, id: string, hash: string): (r: Step<()>)
    ensures r.Done? <==> id !in db.banned
    ensures r.Done? ==> r.store.banned == db.banned[id := hash]
    ensures r.Done? ==> r.store.reqLimits == db.reqLimits && r.store.queueStatus == db.queueStatus
  {
    if id in db.banned then Fatal
    else Done(db.(banned := db.banned[id := hash]), ())
  }

  /** `UnbanMap`: DELETE by id, which is a no-op for an absent id. */
  function UnbanMap(db: Store, id: string): (r: Store)
    ensures r.banned.Keys == db.banned.Keys - {id}
    ensures forall k :: k in r.banned ==> r.banned[k] == db.banned[k]
    ensures r.reqLimits == db.reqLimits && r.queueStatus == db.queueStatus
  {
    db.(banned := map k | k in db.banned && k != id :: db.banned[k])
  }

  /** `FindBannedMap`: a row with the id scans successfully. */
  function FindBannedMap(db: Store, id: string): (found: bool)
    ensures found <==> exists k :: k in db.banned && k == id
  {
    id in db.banned
  }

  /** `GetUserRequests`: the stored count, or, for an unknown user, a fresh `(user, 0)` row and 0. */
  function GetUserRequests(db: Store, user: string): (r: (Store, int))
    ensures user in db.reqLimits ==> r == (db, db.reqLimits[user])
    ensures user !in db.reqLimits ==> r.1 == 0 && r.0.reqLimits == db.reqLimits[user := 0]
    ensures r.0.banned == db.banned && r.0.queueStatus == db.queueStatus
    ensures user in r.0.reqLimits && r.0.reqLimits[user] == r.1
  {
    if user in db.reqLimits then (db, db.reqLimits[user])
    else (db.(reqLimits := db.reqLimits[user := 0]), 0)
  }

  /** `SetUserRequests`: a plain INSERT, so it fails on any user that already has a row. */
  function SetUserRequests(db: Store, user: string, n: int): (r: Step<()>)
    ensures r.Done? <==> user !in db.reqLimits
    ensures r.Done? ==> r.store.reqLimits == db.reqLimits[user := n]
  {
    if user in db.reqLimits then Fatal
    else Done(db.(reqLimits := db.reqLimits[user := n]), ())
  }

  /** `ClearRequestLimits`: DELETE of every counter row. */
  function ClearRequestLimits(db: Store): (r: Store)
    ensures |r.reqLimits| == 0
    ensures r.banned == db.banned && r.queueStatus == db.queueStatus
  {
    db.(reqLimits := map[])
  }

  /** `SetQueueStatus`: reads the newest row (fatal when there is none) and updates its flag. */
  function SetQueueStatus(db: Store, open: bool): (r: Step<()>)
    ensures r.Done? <==> |db.queueStatus| > 0
    ensures r.Done? ==> r.store.queueStatus.Keys == db.queueStatus.Keys
    ensures r.Done? ==> r.store.banned == db.banned && r.store.reqLimits == db.reqLimits
  {
    if |db.queueStatus| == 0 then Fatal
    else
      var newest := SessionLog.Newest(db.queueStatus);
      Done(db.(queueStatus := db.queueStatus[newest := open]), ())
  }

  /** `GetQueueStatus`: the flag of the newest row; fatal on an empty table. */
  function GetQueueStatus(db: Store): (r: Step<bool>)
    ensures r.Done? <==> |db.queueStatus| > 0
    ensures r.Done? ==> r.store == db
    ensures r.Done? ==> exists t :: (t in db.queueStatus && r.value == db.queueStatus[t]
                                     && forall k :: k in db.queueStatus ==> k <= t)
  {
    if |db.queueStatus| == 0 then Fatal
    else Done(db, db.queueStatus[SessionLog.Newest(db.queueStatus)])
  }

  // ---- Properties relating the operations ----

  /** A ban is visible to `FindBannedMap`, and a second ban of the same id is fatal. */
  lemma BanThenFind(db: Store, id: string, hash: string, hash2: string)
    requires id !in db.banned
    ensures BanMap(db, id, hash).Done?
    ensures FindBannedMap(BanMap(db, id, hash).store, id)
    ensures BanMap(BanMap(db, id, hash).store, id, hash2) == Fatal
  {
  }

  /** After an unban the id is not found; unbanning an absent id changes nothing. */
  lemma UnbanThenFind(db: Store, id: string)
    ensures !FindBannedMap(UnbanMap(db, id), id)
    ensures !FindBannedMap(db, id) ==> UnbanMap(db, id) == db
  {
    if !FindBannedMap(db, id) {
      assert UnbanMap(db, id).banned == db.banned;
    }
  }

  /** Setting a count never overwrites an existing row. */
  lemma SetUserRequestsNeverOverwrites(db: Store, user: string, n: int)
    requires user in db.reqLimits
    ensures SetUserRequests(db, user, n) == Fatal
  {
  }

  /** A read creates the row, so a following `SetUserRequests` of the same user is always fatal. */
  lemma ReadThenSetIsFatal(db: Store, user: string, n: int)
    ensures SetUserRequests(GetUserRequests(db, user).0, user, n) == Fatal
  {
  }

  /** After `ClearRequestLimits` every user reads 0. */
  lemma ClearThenZero(db: Store, user: string)
    ensures GetUserRequests(ClearRequestLimits(db), user).1 == 0
  {
  }

  /** A new session later than every existing one makes the queue read as closed;
      with no sessions at all, reading the status is fatal. */
  lemma NewSessionCloses(db: Store, timestamp: int)
    requires forall t :: t in db.queueStatus ==> t < timestamp
    ensures NewSession(db, timestamp).Done?
    ensures GetQueueStatus(NewSession(db, timestamp).store) == Done(NewSession(db, timestamp).store, false)
    ensures |db.queueStatus| == 0 ==> GetQueueStatus(db) == Fatal
  {
    SessionLog.NewestAfterAppend(db.queueStatus, timestamp, false);
  }

  /** Setting the status is read back, and rows other than the newest keep their flags. */
  lemma SetThenGetQueueStatus(db: Store, open: bool)
    requires |db.queueStatus| > 0
    ensures var s := SetQueueStatus(db, open).store;
      && GetQueueStatus(s).value == open
      && forall t :: t in db.queueStatus && t != SessionLog.Newest(db.queueStatus) ==> s.queueStatus[t] == db.queueStatus[t]
  {
    var newest := SessionLog.Newest(db.queueStatus);
    SessionLog.NewestAfterUpdate(db.queueStatus, newest, open);
  }
}

=== FILE: helpers.dfy ===
/** The zero-means-disabled comparisons of src/helpers.rs, instantiated at
    integers. The filter of src/filter.rs defines its own copies and calls none of these. */
module Helpers {

  /** `ignore_config`: a configuration value of zero switches its check off.
      src/config.rs carries an identical copy. */
  function IgnoreConfig(v: int): (ignored: bool)
    ensures ignored <==> v == 0
  {
    v == 0
  }

  /** `ignore_or_gt(to_compare, config_val)`. */
  function IgnoreOrGt(toCompare: int, configVal: int): (ok: bool)
    ensures ok <==> configVal == 0 || toCompare > configVal
  {
    IgnoreConfig(configVal) || toCompare > configVal
  }

  /** `ignore_or_lt(to_compare, config_val)`. */
  function IgnoreOrLt(toCompare: int, configVal: int): (ok: bool)
    ensures ok <==> configVal == 0 || toCompare < configVal
  {
    IgnoreConfig(configVal) || toCompare < configVal
  }

  /** `ignore_or_geq(config_val, to_compare)`: the configured value comes first. */
  function IgnoreOrGeq(configVal: int, toCompare: int): (ok: bool)
    ensures ok <==> configVal == 0 || toCompare >= configVal
  {
    IgnoreConfig(configVal) || toCompare >= configVal
  }

  /** `ignore_or_leq(config_val, to_compare)`: the configured value comes first. */
  function IgnoreOrLeq(configVal: int, toCompare: int): (ok: bool)
    ensures ok <==> configVal == 0 || toCompare <= configVal
  {
    IgnoreConfig(configVal) || toCompare <= configVal
  }

  /** With a non-zero setting, "less than" and "at least" are exact opposites,
      and so are "greater than" and "at most". */
  lemma StrictAndWeakAreComplements(x: int, c: int)
    requires c != 0
    ensures IgnoreOrLt(x, c) == !IgnoreOrGeq(c, x)
    ensures IgnoreOrGt(x, c) == !IgnoreOrLeq(c, x)
  {
  }

  /** The loop of `ignore_or_geq_vec`: the flag, once set, is never reset. */
  function ScanAtLeast(v: seq<int>, configVal: int, found: bool): (r: bool)
    ensures r <==> found || exists i :: 0 <= i < |v| && v[i] >= configVal
    decreases |v|
  {
    if |v| == 0 then found
    else
      var rest := ScanAtLeast(v[1..], configVal, found || v[0] >= configVal);
      assert forall i :: 1 <= i < |v| ==> v[i] == v[1..][i - 1];
      rest
  }

  /** The loop of `ignore_or_leq_vec`. */
  function ScanAtMost(v: seq<int>, configVal: int, found: bool): (r: bool)
    ensures r <==> found || exists i :: 0 <= i < |v| && v[i] <= configVal
    decreases |v|
  {
    if |v| == 0 then found
    else
      var rest := ScanAtMost(v[1..], configVal, found || v[0] <= configVal);
      assert forall i :: 1 <= i < |v| ==> v[i] == v[1..][i - 1];
      rest
  }

  /** `ignore_or_geq_vec`: its comment promises "greater than", the code tests `>=`. */
  function IgnoreOrGeqVec(v: seq<int>, configVal: int): (ok: bool)
    ensures ok <==> configVal == 0 || exists i :: 0 <= i < |v| && v[i] >= configVal
  {
    if IgnoreConfig(configVal) then true
    else ScanAtLeast(v, configVal, false)
  }

  /** `ignore_or_leq_vec`: its comment promises "less than", the code tests `<=`. */
  function IgnoreOrLeqVec(v: seq<int>, configVal: int): (ok: bool)
    ensures ok <==> configVal == 0 || exists i :: 0 <= i < |v| && v[i] <= configVal
    ensures configVal != 0 && |v| == 0 ==> !ok
  {
    if IgnoreConfig(configVal) then true
    else ScanAtMost(v, configVal, false)
  }

  lemma SomeElementAtLeast(a: seq<int>, b: seq<int>, c: int)
    requires multiset(a) == multiset(b)
    requires exists i :: 0 <= i < |a| && a[i] >= c
    ensures exists j :: 0 <= j < |b| && b[j] >= c
  {
    var i :| 0 <= i < |a| && a[i] >= c;
    assert a[i] in multiset(a);
    assert a[i] in b;
    var j :| 0 <= j < |b| && b[j] == a[i];
  }

  lemma SomeElementAtMost(a: seq<int>, b: seq<int>, c: int)
    requires multiset(a) == multiset(b)
    requires exists i :: 0 <= i < |a| && a[i] <= c
    ensures exists j :: 0 <= j < |b| && b[j] <= c
  {
    var i :| 0 <= i < |a| && a[i] <= c;
    assert a[i] in multiset(a);
    assert a[i] in b;
    var j :| 0 <= j < |b| && b[j] == a[i];
  }

  /** Reordering the difficulties never changes a vector check's answer. */
  lemma VecChecksIgnoreOrder(a: seq<int>, b: seq<int>, c: int)
    requires multiset(a) == multiset(b)
    ensures IgnoreOrGeqVec(a, c) == IgnoreOrGeqVec(b, c)
    ensures IgnoreOrLeqVec(a, c) == IgnoreOrLeqVec(b, c)
  {
    if exists i :: 0 <= i < |a| && a[i] >= c { SomeElementAtLeast(a, b, c); }
    if exists j :: 0 <= j < |b| && b[j] >= c { SomeElementAtLeast(b, a, c); }
    if exists i :: 0 <= i < |a| && a[i] <= c { SomeElementAtMost(a, b, c); }
    if exists j :: 0 <= j < |b| && b[j] <= c { SomeElementAtMost(b, a, c); }
  }

  /** `match_in_two_vecs`: stops at the first element of `toFind` present in `findIn`. */
  function MatchInTwoVecs(toFind: seq<string>, findIn: seq<string>): (found: bool)
    ensures found <==> exists i, j :: 0 <= i < |toFind| && 0 <= j < |findIn| && toFind[i] == findIn[j]
    decreases |toFind|
  {
    if |toFind| == 0 then false
    else if toFind[0] in findIn then true
    else
      var rest := MatchInTwoVecs(toFind[1..], findIn);
      assert forall i :: 1 <= i < |toFind| ==> toFind[i] == toFind[1..][i - 1];
      rest
  }

  /** Sharing an element does not depend on which vector is searched. */
  lemma MatchIsSymmetric(a: seq<string>, b: seq<string>)
    ensures MatchInTwoVecs(a, b) == MatchInTwoVecs(b, a)
    ensures |a| == 0 || |b| == 0 ==> !MatchInTwoVecs(a, b)
  {
    if MatchInTwoVecs(a, b) {
      var i, j :| 0 <= i < |a| && 0 <= j < |b| && a[i] == b[j];
      assert b[j] == a[i];
    }
    if MatchInTwoVecs(b, a) {
      var j, i :| 0 <= j < |b| && 0 <= i < |a| && b[j] == a[i];
      assert a[i] == b[j];
    }
  }
}

=== FILE: parser.dfy ===
/** `Parse` of parser/main.go: each subcommand becomes the command name handed to
    the dispatcher, the remote calls made while parsing, which reply body is
    handed on, the extra value, and an optional error. The remote service's
    replies (the user's positions, the decoded queue snapshot) are inputs;
    the lines printed along the way are not modelled. */
module Parser {
  import opened Wrappers
  import opened Schema
  import opened Remote
  import opened Surgery

  /** The subcommand go-arg selected; `NoSubcommand` when none was given. */
  datatype Subcommand =
    | Request(id: string, user: string)
    | Mtt(user: string)
    | GetQueue(user: string)
    | Queue(status: bool)
    | ClearQueue(saveQueue: bool)
    | Ban(id: string)
    | Unban(id: string)
    | Oops(user: string)
    | Wip(id: string, user: string)
    | New
    | NoSubcommand

  /** The second result of `Parse`: whose reply body it is. */
  datatype Body =
    | NoBody                       // nil
    | QueryReply(id: string)       // reply of "query/<id>"
    | QueueReply                   // reply of "queue"
    | MoveReply(from: int)         // reply of "queue/move/<from>/1"
    | ClearReply                   // reply of "queue/clear"
    | WipReply                     // reply of "addWip/<id>?user=<user>"
    | Marshalled(last: MapData)    // json.Marshal of the returned entry

  /** The third result of `Parse`, an `any`. */
  datatype Extra =
    | NoExtra                        // nil
    | Text(text: string)             // the requesting user
    | Positions(positions: seq<int>) // nil slice when no user was given
    | QueueBytes(saved: bool)        // the saved snapshot, a nil slice when not saved

  datatype Parsed =
    | Parsed(command: string, calls: seq<Call>, body: Body, extra: Extra, err: Option<string>)
    | ParseCrash(calls: seq<Call>)

  /** What the remote service answers during one parse: `WhereDRM(user)` and the
      decoded queue snapshot, `None` when `json.Unmarshal` fails. */
  datatype Replies = Replies(positions: seq<int>, snapshot: Option<seq<MapData>>)

  function NoRequestsError(user: string): string {
    "user " + user + " does not have any requests in the queue"
  }

  function ArgumentError(argv: string): string {
    "error in argument parsing: " + argv
  }

  /** The entry the undo returns: the LAST KEPT entry (the loop overwrites it for
      every kept element), or Go's zero `MapData` when nothing is kept. */
  function LastKept(kept: seq<MapData>): (m: MapData)
    ensures |kept| == 0 ==> m == EmptyMap
    ensures |kept| > 0 ==> m == kept[|kept| - 1]
  {
    if |kept| == 0 then EmptyMap else kept[|kept| - 1]
  }

  /** The undo rebuild: drop the snapshot element whose index is the user's last
      position, then, if the last kept entry has a key, clear the queue and
      re-add every kept entry in order. */
  function ParseOops(user: string, replies: Replies): (r: Parsed)
    ensures r.ParseCrash? <==> replies.snapshot.None? || |replies.positions| == 0
    ensures r.ParseCrash? ==> r.calls == []
  {
    match replies.snapshot
    case None => ParseCrash([])
    case Some(queue) =>
      if |replies.positions| == 0 then ParseCrash([])
      else
        var skip := replies.positions[|replies.positions| - 1];
        var kept := DropIndex(queue, skip);
        var last := LastKept(kept);
        if last.key != "" then
          Parsed("oops", [Clear] + AddAll(SlotsOf(kept)), Marshalled(last), NoExtra, None)
        else
          Parsed("oops", [], NoBody, NoExtra, Some(NoRequestsError(user)))
  }

  /** `Parse`. The Queue subcommand only prints and falls through to the
      argument-parsing error, exactly like a missing subcommand. */
  function Parse(sub: Subcommand, replies: Replies, argv: string): (r: Parsed)
    ensures r.ParseCrash? ==> r.calls == []
  {
    match sub
    case Request(id, user) => Parsed("add", [], QueryReply(id), Text(user), None)
    case Mtt(_) =>
      // the FIRST position, unlike runner.go's "mtt"
      if |replies.positions| == 0 then ParseCrash([])
      else Parsed("mtt", [Move(replies.positions[0], 1)], MoveReply(replies.positions[0]), NoExtra, None)
    case GetQueue(user) =>
      Parsed("getqueue", [], QueueReply, Positions(if user != "" then replies.positions else []), None)
    case Queue(_) => Parsed("", [], NoBody, NoExtra, Some(ArgumentError(argv)))
    case ClearQueue(save) => Parsed("clear", [Clear], ClearReply, QueueBytes(save), None)
    case Ban(id) => Parsed("ban", [], QueryReply(id), NoExtra, None)
    case Unban(id) => Parsed("unban", [], QueryReply(id), NoExtra, None)
    case Oops(user) => ParseOops(user, replies)
    case Wip(id, user) => Parsed("wip", [AddWip(id + "?user=" + user)], WipReply, NoExtra, None)
    case New => Parsed("new", [], NoBody, NoExtra, None)
    case NoSubcommand => Parsed("", [], NoBody, NoExtra, Some(ArgumentError(argv)))
  }

  // ---- Properties ----

  /** A successful undo clears once and re-adds, in order, every snapshot entry
      except the one at index `skip`; an index outside the snapshot keeps it all.
      The remote queue ends up holding exactly those entries. */
  lemma OopsRebuild(user: string, positions: seq<int>, queue: seq<MapData>, before: seq<Slot>)
    requires |positions| > 0
    ensures var r := ParseOops(user, Replies(positions, Some(queue)));
      var skip := positions[|positions| - 1];
      r.Parsed? && r.err.None? ==>
        && r.calls == [Clear] + AddAll(SlotsOf(DropIndex(queue, skip)))
        && Rebuilding(r.calls)
        && (0 <= skip < |queue| ==> Replay(before, r.calls) == SlotsOf(queue[..skip] + queue[skip + 1..]))
        && (!(0 <= skip < |queue|) ==> Replay(before, r.calls) == SlotsOf(queue))
  {
    ClearThenAddAll(before, SlotsOf(DropIndex(queue, positions[|positions| - 1])));
  }

  /** Each re-add carries `key?user=User` of the kept entry at the same rank. */
  lemma OopsAddArguments(user: string, positions: seq<int>, queue: seq<MapData>)
    requires |positions| > 0
    ensures var r := ParseOops(user, Replies(positions, Some(queue)));
      var kept := DropIndex(queue, positions[|positions| - 1]);
      r.Parsed? && r.err.None? ==>
        && |r.calls| == |kept| + 1
        && (forall i :: 1 <= i < |r.calls| ==>
              r.calls[i].AddKey?
              && AddKeyArgument(r.calls[i].key, r.calls[i].user) == kept[i - 1].key + "?user=" + kept[i - 1].user)
  {
    var r := ParseOops(user, Replies(positions, Some(queue)));
    var kept := DropIndex(queue, positions[|positions| - 1]);
    if r.Parsed? && r.err.None? {
      var adds := AddAll(SlotsOf(kept));
      assert r.calls == [Clear] + adds;
      forall i | 1 <= i < |r.calls|
        ensures r.calls[i].AddKey?
        ensures AddKeyArgument(r.calls[i].key, r.calls[i].user) == kept[i - 1].key + "?user=" + kept[i - 1].user
      {
        assert r.calls[i] == adds[i - 1] == AddKey(kept[i - 1].key, Some(kept[i - 1].user));
      }
    }
  }

  /** The undo succeeds exactly when the last kept entry has a key, and it then
      hands back that entry, not the removed one; otherwise nothing is sent and
      the no-requests error is returned. */
  lemma OopsOutcome(user: string, positions: seq<int>, queue: seq<MapData>)
    requires |positions| > 0
    ensures var r := ParseOops(user, Replies(positions, Some(queue)));
      var last := LastKept(DropIndex(queue, positions[|positions| - 1]));
      && r.Parsed?
      && (last.key != "" ==> r.err.None? && r.body == Marshalled(last))
      && (last.key == "" ==> r == Parsed("oops", [], NoBody, NoExtra, Some(NoRequestsError(user))))
  {
  }

  /** When the only entry is the one removed, nothing is kept and the user is told
      they have no requests, although they had one. */
  lemma OopsOfOnlyEntryFails(user: string, m: MapData)
    ensures ParseOops(user, Replies([0], Some([m]))).err == Some(NoRequestsError(user))
    ensures ParseOops(user, Replies([0], Some([m]))).calls == []
  {
  }

  /** Snapshot [A, B, C], positions [0, 2]: index 2 goes, A and B are re-added and
      B is returned as the "removed" request. */
  lemma OopsReturnsKeptEntry()
    ensures var a := MapData("a", "", "u1", 0, 0, []);
      var b := MapData("b", "", "u2", 0, 0, []);
      var c := MapData("c", "", "u1", 0, 0, []);
      var r := ParseOops("u1", Replies([0, 2], Some([a, b, c])));
      && r.calls == [Clear, AddKey("a", Some("u1")), AddKey("b", Some("u2"))]
      && r.body == Marshalled(b)
  {
    var a := MapData("a", "", "u1", 0, 0, []);
    var b := MapData("b", "", "u2", 0, 0, []);
    var c := MapData("c", "", "u1", 0, 0, []);
    assert DropIndex([a, b, c], 2) == [a, b];
    assert LastKept([a, b]) == b;
    var slots := SlotsOf([a, b]);
    assert slots == [Slot("a", Some("u1")), Slot("b", Some("u2"))];
    assert AddAll(slots) == [AddKey("a", Some("u1")), AddKey("b", Some("u2"))];
  }

  /** No positions: indexing the last one panics before anything is sent. */
  lemma OopsWithoutPositionsCrashes(user: string, queue: seq<MapData>)
    ensures ParseOops(user, Replies([], Some(queue))) == ParseCrash([])
  {
  }

  /** "mtt" moves the FIRST position to spot 1 and panics without positions. */
  lemma MttMovesFirstPosition(user: string, replies: Replies, argv: string)
    ensures |replies.positions| > 0 ==> Parse(Mtt(user), replies, argv).calls == [Move(replies.positions[0], 1)]
    ensures |replies.positions| == 0 ==> Parse(Mtt(user), replies, argv).ParseCrash?
  {
  }

  /** The Queue subcommand ends like a missing subcommand: no command, argument error. */
  lemma QueueFallsThrough(status: bool, replies: Replies, argv: string)
    ensures Parse(Queue(status), replies, argv) == Parse(NoSubcommand, replies, argv)
    ensures Parse(Queue(status), replies, argv).err == Some("error in argument parsing: " + argv)
    ensures Parse(Queue(status), replies, argv).command == ""
  {
  }

  /** Only "mtt", "clear" and a successful "oops" send anything while parsing. */
  lemma ParseMutatingSubcommands(sub: Subcommand, replies: Replies, argv: string)
    ensures |Parse(sub, replies, argv).calls| > 0 ==> sub.Mtt? || sub.ClearQueue? || sub.Oops? || sub.Wip?
  {
  }
}

=== FILE: remote.dfy ===
/** The remote queue service seen as a log of the mutating calls the client
    issues. Replies to queries are inputs of the commands, not calls. */
module Remote {
  import opened Wrappers
  import opened Schema

  datatype Call =
    | Clear                 // "queue/clear"
    | BareClear             // "clear/": a top-level path, not the queue's clear endpoint
    | AddKey(key: string, user: Option<string>)
    | AddKeyWithService(key: string, requester: string, service: string)
    | Move(from: int, to: int)
    | SetOpen(open: bool)
    | Remove(removed: string)
    | AddWip(arg: string)   // "addWip/<arg>": a work-in-progress upload

  /** The `addKey` endpoint argument: the key, then `?user=` and the requester when there is one. */
  function AddKeyArgument(key: string, user: Option<string>): (arg: string)
    ensures user.None? ==> arg == key
    ensures user.Some? ==> arg == key + "?user=" + user.value
    ensures |arg| >= |key| && arg[..|key|] == key
  {
    match user
    case None => key
    case Some(u) => key + "?user=" + u
  }

  /** One entry of the remote queue as far as re-adding is concerned. */
  datatype Slot = Slot(key: string, user: Option<string>)

  /** The slot each entry is re-added as: key and `?user=` requester. */
  function SlotOf(m: MapData): Slot {
    Slot(m.key, Some(m.user))
  }

  function SlotsOf(ms: seq<MapData>): (slots: seq<Slot>)
    ensures |slots| == |ms|
    ensures forall i :: 0 <= i < |ms| ==> slots[i] == SlotOf(ms[i])
  {
    seq(|ms|, i requires 0 <= i < |ms| => SlotOf(ms[i]))
  }

  /** Traces that only clear and append. */
  predicate Rebuilding(calls: seq<Call>) {
    forall i :: 0 <= i < |calls| ==> calls[i].Clear? || calls[i].AddKey?
  }

  /** The remote queue after a clearing/appending trace. */
  function Replay(queue: seq<Slot>, calls: seq<Call>): seq<Slot>
    requires Rebuilding(calls)
    decreases |calls|
  {
    if |calls| == 0 then queue
    else
      var next := if calls[0].Clear? then [] else queue + [Slot(calls[0].key, calls[0].user)];
      Replay(next, calls[1..])
  }

  /** One `AddKey` per slot, in order. */
  function AddAll(slots: seq<Slot>): (calls: seq<Call>)
    ensures |calls| == |slots|
    ensures forall i :: 0 <= i < |slots| ==> calls[i] == AddKey(slots[i].key, slots[i].user)
    ensures Rebuilding(calls)
  {
    seq(|slots|, i requires 0 <= i < |slots| => AddKey(slots[i].key, slots[i].user))
  }

  lemma {:induction false} ReplayAppends(queue: seq<Slot>, slots: seq<Slot>)
    ensures Replay(queue, AddAll(slots)) == queue + slots
    decreases |slots|
  {
    if |slots| > 0 {
      assert AddAll(slots)[1..] == AddAll(slots[1..]);
      ReplayAppends(queue + [slots[0]], slots[1..]);
      assert queue + [slots[0]] + slots[1..] == queue + slots;
    }
  }

  /** Clearing and re-adding `slots` leaves the remote queue equal to `slots`,
      whatever it held before. */
  lemma ClearThenAddAll(queue: seq<Slot>, slots: seq<Slot>)
    ensures Rebuilding([Clear] + AddAll(slots))
    ensures Replay(queue, [Clear] + AddAll(slots)) == slots
  {
    var calls := [Clear] + AddAll(slots);
    assert calls[1..] == AddAll(slots);
    ReplayAppends([], slots);
    assert [] + slots == slots;
  }
}

=== FILE: runner.dfy ===
/** `RunCommands` of runner.go: each command as a transition of the local store
    that also yields the remote calls issued and the message printed. Replies of
    the remote service (the queried map, the queue snapshot, the user's
    positions), the clock, the request limit and the filter's verdict are inputs:
    runner.go calls a `FilterMap` of a different arity than filters.go defines,
    so the verdict is taken as given. */
module Runner {
  import opened Wrappers
  import opened Schema
  import opened Decimal
  import opened Remote
  import opened Errors
  import opened Surgery
  import opened Effects
  import GoStore
  import SessionLog
  import Parser

  /** Go's `map[string]string`; `None` is the nil map. */
  type Args = Option<map<string, string>>

  /** Indexing a Go map: the empty string when the key (or the whole map) is missing. */
  function Arg(args: Args, key: string): string {
    if args.Some? && key in args.value then args.value[key] else ""
  }

  /** `strconv.ParseBool`: None stands for its error. */
  function ParseBool(s: string): (r: Option<bool>)
    ensures r == Some(true) <==> s in {"1", "t", "T", "TRUE", "true", "True"}
    ensures r == Some(false) <==> s in {"0", "f", "F", "FALSE", "false", "False"}
  {
    if s in {"1", "t", "T", "TRUE", "true", "True"} then Some(true)
    else if s in {"0", "f", "F", "FALSE", "false", "False"} then Some(false)
    else None
  }

  /** Replies of the remote service and other inputs of one invocation. */
  datatype Env = Env(
    now: int,                     // time.Now(), in seconds
    fetched: MapData,             // queryMap of the "query" reply
    positions: seq<int>,          // drm.WhereDRM(user)
    queue: seq<MapData>,          // queryMaps of the queue snapshot
    verdict: Option<Rejection>,   // what the filter returned
    requestLimit: int,            // bsr.request-limit
    formatters: Formatters)

  function OpenWord(open: bool): string {
    if open then "open" else "closed"
  }

  // ---- the commands ----

  /** "new": request the top-level `clear/` path (not `queue/clear`, so the remote
      queue is not cleared through its endpoint), drop every counter, close the
      remote queue, then insert a closed session row. */
  function New(db: GoStore.Store, now: int): (r: GoOutcome)
    ensures r.calls == [BareClear, SetOpen(false)]
    ensures |r.store.reqLimits| == 0
    ensures r.Crashed? <==> now in db.queueStatus
  {
    var cleared := GoStore.ClearRequestLimits(db);
    match GoStore.NewSession(cleared, now)
    case Fatal => Crashed([BareClear, SetOpen(false)], cleared)
    case Done(s, _) => Finished([BareClear, SetOpen(false)], "New session created! Queue has been cleared and closed.", s)
  }

  /** "add": read the counter (creating the row), apply the verdict, enqueue, and
      with a positive limit store `count + 1` with a plain INSERT. */
  function Add(db: GoStore.Store, user: string, fetched: MapData, verdict: Option<Rejection>, limit: int, f: Formatters)
    : (r: GoOutcome)
    ensures verdict.Some? ==> r.Finished? && r.calls == [] && r.message == Error(verdict.value, f)
    ensures verdict.None? ==> r.calls == [AddKey(fetched.key, Some(user))]
    ensures verdict.None? && limit > 0 ==> r.Crashed?
    ensures r.store.banned == db.banned && r.store.queueStatus == db.queueStatus
    ensures user in r.store.reqLimits
  {
    var (db1, count) := GoStore.GetUserRequests(db, user);
    match verdict
    case Some(e) => Finished([], Error(e, f), db1)
    case None =>
      var calls := [AddKey(fetched.key, Some(user))];
      if limit > 0 then
        var n := count + 1;
        match GoStore.SetUserRequests(db1, user, n)
        case Fatal => Crashed(calls, db1)
        case Done(s, _) => Finished(calls, "Added to queue!" + " You have " + IntToString(limit - n) + " requests left.", s)
      else Finished(calls, "Added to queue!", db1)
  }

  /** "mtt": move the user's last position to spot 1; no position is an index panic. */
  function Mtt(db: GoStore.Store, positions: seq<int>): (r: GoOutcome)
    ensures r.Crashed? <==> |positions| == 0
    ensures r.store == db
    ensures r.Finished? ==> r.calls == [Move(positions[|positions| - 1], 1)]
  {
    if |positions| == 0 then Crashed([], db)
    else Finished([Move(positions[|positions| - 1], 1)], "Moved request to the top of the queue.", db)
  }

  /** The position loop of "getqueue": `idx < len(positions)` always holds, so
      every position is followed by ", " and the "and N." branch is dead. */
  function PositionList(positions: seq<int>): string
    decreases |positions|
  {
    if |positions| == 0 then ""
    else IntToString(positions[0]) + ", " + PositionList(positions[1..])
  }

  /** "getqueue": the number of maps, then, for a non-empty user, their positions. */
  function GetQueueMessage(user: string, positions: seq<int>, queue: seq<MapData>): (text: string)
    ensures var count := "There are " + IntToString(|queue|) + " maps in queue!";
      && |text| >= |count| && text[..|count|] == count
      && (text == count <==> user == "")
  {
    var count := "There are " + IntToString(|queue|) + " maps in queue!";
    if user == "" then count
    else if |positions| > 1 then count + " Your maps are in positions " + PositionList(positions)
    else if |positions| == 1 then count + " Your map is in position " + IntToString(positions[0]) + "."
    else count + " You have no maps in queue."
  }

  /** "ban": insert the fetched map's key and hash; a repeated ban is fatal. */
  function Ban(db: GoStore.Store, fetched: MapData): (r: GoOutcome)
    ensures r.calls == []
    ensures r.Crashed? <==> fetched.key in db.banned
    ensures r.Finished? ==> r.store.banned == db.banned[fetched.key := fetched.hash]
  {
    match GoStore.BanMap(db, fetched.key, fetched.hash)
    case Fatal => Crashed([], db)
    case Done(s, _) => Finished([], fetched.key + " is now banned from being requested.", s)
  }

  /** "unban": calls `BanMap` as well, so the key ends up banned while the message says the opposite. */
  function Unban(db: GoStore.Store, fetched: MapData): (r: GoOutcome)
    ensures r.calls == []
    ensures r.Finished? <==> !GoStore.FindBannedMap(db, fetched.key)
    ensures r.Finished? ==> GoStore.FindBannedMap(r.store, fetched.key)
  {
    match GoStore.BanMap(db, fetched.key, fetched.hash)
    case Fatal => Crashed([], db)
    case Done(s, _) => Finished([], fetched.key + " can now be requested again.", s)
  }

  /** "queuestatus": report the newest session's flag. */
  function QueueStatus(db: GoStore.Store): (r: GoOutcome)
    ensures r.calls == [] && r.store == db
    ensures r.Crashed? <==> |db.queueStatus| == 0
    ensures r.Finished? ==> (r.message == "The queue is currently open." <==> db.queueStatus[SessionLog.Newest(db.queueStatus)])
    ensures r.Finished? ==> (r.message == "The queue is currently closed." <==> !db.queueStatus[SessionLog.Newest(db.queueStatus)])
  {
    match GoStore.GetQueueStatus(db)
    case Fatal => Crashed([], db)
    case Done(_, open) => Finished([], "The queue is currently " + OpenWord(open) + ".", db)
  }

  /** "togglequeue": the current status is read first (fatal on an empty table);
      a non-nil argument map replaces the negation by `ParseBool(args["status"])`,
      false when missing or unparsable. Only the local store is updated. */
  function ToggleQueue(db: GoStore.Store, args: Args): (r: GoOutcome)
    ensures r.calls == []
    ensures r.Crashed? <==> |db.queueStatus| == 0
  {
    match GoStore.GetQueueStatus(db)
    case Fatal => Crashed([], db)
    case Done(_, current) =>
      var status := if args.None? then !current else ParseBool(Arg(args, "status")).GetOr(false);
      match GoStore.SetQueueStatus(db, status)
      case Fatal => Crashed([], db)
      case Done(s, _) => Finished([], "The queue is now " + OpenWord(status) + ".", s)
  }

  /** "wip": forward the WIP id with the requester appended after "?user",
      without the '=' the parser's own Wip request puts there; the store is untouched. */
  function Wip(db: GoStore.Store, id: string, user: string): (r: GoOutcome)
    ensures r.Finished? && r.store == db
    ensures |r.calls| == 1 && r.calls[0].AddWip?
    ensures |r.calls[0].arg| == |id| + 5 + |user|
    ensures r.calls[0].arg[..|id|] == id && r.calls[0].arg[|id| + 5..] == user
  {
    Finished([AddWip(id + "?user" + user)], "Added WIP " + id + ".", db)
  }

  /** Entries that do not share key and requester with `target`. */
  function Others(queue: seq<MapData>, target: MapData): (kept: seq<MapData>)
  {
    Filter(queue, (m: MapData) => !(m.key == target.key && m.user == target.user))
  }

  /** "oops": the snapshot is indexed by the NUMBER of positions minus one, not by a
      position; the queue is cleared and every entry not sharing key and requester
      with that entry is re-added in order. */
  function Oops(db: GoStore.Store, queue: seq<MapData>, positions: seq<int>): (r: GoOutcome)
    ensures r.store == db
    ensures r.Crashed? <==> |positions| == 0 || |positions| > |queue|
    ensures r.Crashed? ==> r.calls == []
  {
    var idx := |positions| - 1;
    if idx < 0 || idx >= |queue| then Crashed([], db)
    else
      var last := queue[idx];
      Finished([Clear] + AddAll(SlotsOf(Others(queue, last))), "Request " + last.key + " removed from queue.", db)
  }

  /** `RunCommands`: dispatch on the command name; an unknown name does nothing. */
  function RunCommands(command: string, args: Args, env: Env, db: GoStore.Store): (r: GoOutcome)
    ensures command == "getqueue" ==> r.Finished? && r.calls == [] && r.store == db
    ensures command == "wip" ==> r.Finished? && r.store == db && |r.calls| == 1 && r.calls[0].AddWip?
    ensures command !in {"new", "add", "mtt", "getqueue", "ban", "unban", "queuestatus", "togglequeue", "oops", "wip"}
      ==> r == Finished([], "", db)
  {
    match command
    case "new" => New(db, env.now)
    case "add" => Add(db, Arg(args, "username"), env.fetched, env.verdict, env.requestLimit, env.formatters)
    case "mtt" => Mtt(db, env.positions)
    case "getqueue" => Finished([], GetQueueMessage(Arg(args, "username"), env.positions, env.queue), db)
    case "ban" => Ban(db, env.fetched)
    case "unban" => Unban(db, env.fetched)
    case "queuestatus" => QueueStatus(db)
    case "togglequeue" => ToggleQueue(db, args)
    case "oops" => Oops(db, env.queue, env.positions)
    case "wip" => Wip(db, Arg(args, "id"), Arg(args, "username"))
    case _ => Finished([], "", db)
  }

  // ---- Properties ----

  /** "new" requests `clear/`, then closes the remote queue; with a fresh
      timestamp it finishes, every counter is gone and the queue reads as closed. */
  lemma NewResetsAndCloses(db: GoStore.Store, now: int)
    requires forall t :: t in db.queueStatus ==> t < now
    ensures var r := New(db, now);
      && r.Finished?
      && r.calls == [BareClear, SetOpen(false)]
      && GoStore.GetUserRequests(r.store, "").1 == 0
      && GoStore.GetQueueStatus(r.store).Done? && GoStore.GetQueueStatus(r.store).value == false
  {
    GoStore.NewSessionCloses(GoStore.ClearRequestLimits(db), now);
  }

  /** A rejected add prints the rejection, issues no call and writes no count
      (the read may still create the user's row with 0). */
  lemma RejectedAddHasNoEffect(db: GoStore.Store, user: string, m: MapData, e: Rejection, limit: int, f: Formatters)
    ensures var r := Add(db, user, m, Some(e), limit, f);
      && r == Finished([], Error(e, f), r.store)
      && r.store.banned == db.banned && r.store.queueStatus == db.queueStatus
      && (user in db.reqLimits ==> r.store == db)
      && (user !in db.reqLimits ==> r.store.reqLimits == db.reqLimits[user := 0])
  {
  }

  /** An accepted add enqueues `key?user=user`. With no positive limit it finishes
      without touching the count; with a positive limit the count write is an
      INSERT on the row the read just guaranteed, so the process always dies
      after the map was enqueued. */
  lemma AcceptedAdd(db: GoStore.Store, user: string, m: MapData, limit: int, f: Formatters)
    ensures var r := Add(db, user, m, None, limit, f);
      && r.calls == [AddKey(m.key, Some(user))]
      && AddKeyArgument(m.key, Some(user)) == m.key + "?user=" + user
      && (limit <= 0 ==> r == Finished(r.calls, "Added to queue!", GoStore.GetUserRequests(db, user).0))
      && (limit > 0 ==> r.Crashed?)
  {
    GoStore.ReadThenSetIsFatal(db, user, GoStore.GetUserRequests(db, user).1 + 1);
  }

  /** "mtt" moves the LAST position returned for the user to spot 1. */
  lemma MttMovesLastPosition(db: GoStore.Store, positions: seq<int>)
    requires |positions| > 0
    ensures Mtt(db, positions).calls == [Move(positions[|positions| - 1], 1)]
  {
  }

  /** Every position is followed by ", ". */
  lemma {:induction false} PositionListShape(positions: seq<int>)
    ensures |positions| > 0 ==> |PositionList(positions)| >= 2
    ensures |positions| > 0 ==> PositionList(positions)[|PositionList(positions)| - 2..] == ", "
    ensures |positions| > 0 ==> PositionList(positions) == PositionList(positions[..|positions| - 1])
                                                    + IntToString(positions[|positions| - 1]) + ", "
    decreases |positions|
  {
    if |positions| > 1 {
      PositionListShape(positions[1..]);
      assert positions[1..][..|positions[1..]| - 1] == positions[..|positions| - 1][1..];
    } else if |positions| == 1 {
      assert positions[..0] == [];
    }
  }

  /** The four "getqueue" texts. */
  lemma GetQueueTexts(user: string, positions: seq<int>, queue: seq<MapData>)
    ensures var count := "There are " + IntToString(|queue|) + " maps in queue!";
      var msg := GetQueueMessage(user, positions, queue);
      && (user == "" ==> msg == count)
      && (user != "" && |positions| == 0 ==> msg == count + " You have no maps in queue.")
      && (user != "" && |positions| == 1 ==> msg == count + " Your map is in position " + IntToString(positions[0]) + ".")
      && (user != "" && |positions| > 1 ==> msg[|msg| - 2..] == ", ")
  {
    PositionListShape(positions);
  }

  /** "unban" bans: afterwards the key is found in the ban table. */
  lemma UnbanBans(db: GoStore.Store, m: MapData)
    requires m.key !in db.banned
    ensures Unban(db, m).Finished? && GoStore.FindBannedMap(Unban(db, m).store, m.key)
  {
  }

  /** "togglequeue" persists the negation without arguments, and otherwise the
      parsed "status" argument, false when missing or unparsable. */
  lemma ToggleQueuePersists(db: GoStore.Store, args: Args)
    requires |db.queueStatus| > 0
    ensures var r := ToggleQueue(db, args);
      var current := GoStore.GetQueueStatus(db).value;
      && r.Finished?
      && GoStore.GetQueueStatus(r.store).value == (if args.None? then !current else ParseBool(Arg(args, "status")) == Some(true))
  {
    var current := GoStore.GetQueueStatus(db).value;
    var status := if args.None? then !current else ParseBool(Arg(args, "status")).GetOr(false);
    GoStore.SetThenGetQueueStatus(db, status);
  }

  /** "oops" re-adds, in order, exactly the entries that differ in key or requester
      from the entry at index `len(positions) - 1`, so every copy of it goes. */
  lemma OopsRebuild(db: GoStore.Store, queue: seq<MapData>, positions: seq<int>, before: seq<Slot>)
    requires 0 < |positions| <= |queue|
    ensures var r := Oops(db, queue, positions);
      var target := queue[|positions| - 1];
      var kept := Others(queue, target);
      && r.Finished?
      && r.calls == [Clear] + AddAll(SlotsOf(kept))
      && Rebuilding(r.calls) && Replay(before, r.calls) == SlotsOf(kept)
      && (forall m :: m in kept <==> m in queue && (m.key != target.key || m.user != target.user))
  {
    var kept := Others(queue, queue[|positions| - 1]);
    ClearThenAddAll(before, SlotsOf(kept));
  }

  /** "wip" sends `id?user<user>`, one character shorter than the parser's
      `id?user=<user>` for the same id and user, so the two requests never agree. */
  lemma WipArgumentLacksEquals(db: GoStore.Store, id: string, user: string, replies: Parser.Replies, argv: string)
    ensures var ours := Wip(db, id, user).calls[0].arg;
      var parsed := Parser.Parse(Parser.Wip(id, user), replies, argv);
      && parsed.Parsed? && |parsed.calls| == 1 && parsed.calls[0].AddWip?
      && |parsed.calls[0].arg| == |ours| + 1
      && parsed.calls[0].arg[|id|..|id| + 6] == "?user=" && ours[|id|..|id| + 5] == "?user"
      && ours != parsed.calls[0].arg
  {
    var ours := Wip(db, id, user).calls[0].arg;
    var theirs := Parser.Parse(Parser.Wip(id, user), replies, argv).calls[0].arg;
    assert ours == id + ("?user" + user);
    assert theirs == id + ("?user=" + user);
    Split(id, "?user" + user);
    Split(id, "?user=" + user);
    Split("?user", user);
    Split("?user=", user);
    assert ours[|id|..][..5] == ours[|id|..|id| + 5];
    assert theirs[|id|..][..6] == theirs[|id|..|id| + 6];
  }

  /** Only "new", "add", "mtt", "oops" and "wip" send anything to the remote queue;
      the read-only commands and an unknown name leave the local store untouched. */
  lemma CommandFootprints(command: string, args: Args, env: Env, db: GoStore.Store)
    ensures var r := RunCommands(command, args, env, db);
      && (command !in {"new", "add", "mtt", "oops", "wip"} ==> r.calls == [])
      && (command in {"mtt", "getqueue", "queuestatus", "oops", "wip"} ==> r.store == db)
      && (command !in {"new", "add", "mtt", "getqueue", "ban", "unban", "queuestatus", "togglequeue", "oops", "wip"} ==>
            r == Finished([], "", db))
  {
  }

  /** With snapshot [A(u1), B(u2), C(u1)] and u1 at positions [0, 2], "oops"
      takes index 1 and removes u2's B. */
  lemma OopsRemovesWrongEntry(db: GoStore.Store)
    ensures var a := MapData("a", "", "u1", 0, 0, []);
      var b := MapData("b", "", "u2", 0, 0, []);
      var c := MapData("c", "", "u1", 0, 0, []);
      Oops(db, [a, b, c], [0, 2]).calls == [Clear, AddKey("a", Some("u1")), AddKey("c", Some("u1"))]
  {
    var a := MapData("a", "", "u1", 0, 0, []);
    var b := MapData("b", "", "u2", 0, 0, []);
    var c := MapData("c", "", "u1", 0, 0, []);
    var keep := (m: MapData) => !(m.key == b.key && m.user == b.user);
    assert [a, b, c][1..] == [b, c];
    assert [b, c][1..] == [c];
    assert [c][1..] == [];
    assert Filter([c], keep) == [c];
    assert Filter([b, c], keep) == [c];
    assert Filter([a, b, c], keep) == [a, c];
  }
}

=== FILE: rust_filter.dfy ===
/** `filter_map` of src/filter.rs: modadd bypass, queue open, in-queue limit,
    session limit, ban, date, age and length, stopping at the first failure.
    The store and remote lookups it performs are passed in as their results
    (they are reads, so when they happen does not matter), and so are the
    clock and chrono's calendar arithmetic. */
module RustFilter {
  import opened Wrappers
  import opened Schema
  import opened Decimal
  import opened Helpers
  import opened RustStore

  /** The configuration values the filter reads; `earliestDay` counts days since the epoch. */
  datatype Config = Config(
    sessionMax: int,
    queueMax: int,
    earliestDay: int,
    minAge: int,
    lengthMin: int,
    lengthMax: int)

  /** Clock and chrono services: the current time, `checked_sub_days`
      (None when the result is not representable) and the "%b %e, %Y" rendering. */
  datatype Clock = Clock(now: int, checkedSubDays: (int, nat) -> Option<int>, formatDate: int -> string)

  datatype Verdict = Admit | Deny(reason: Reason)

  const SecondsPerDay := 86400
  const TwoTo32 := 0x1_0000_0000
  const TwoTo64 := 0x1_0000_0000_0000_0000

  /** `usize as i32`: the low 32 bits, read as two's complement. */
  function AsI32(n: nat): (r: int)
    ensures -0x8000_0000 <= r < 0x8000_0000
    ensures n < 0x8000_0000 ==> r == n
  {
    var low := n % TwoTo32;
    if low < 0x8000_0000 then low else low - TwoTo32
  }

  /** `i32 as u64`: a negative value wraps around to 2^64 plus that value. */
  function AsU64(n: int): (r: nat)
    requires -0x8000_0000 <= n < 0x8000_0000
    ensures n >= 0 ==> r == n
    ensures n < 0 ==> r == TwoTo64 + n
  {
    n % TwoTo64
  }

  /** `is_older`: the signed distance from `minDate` to `mapDate` is negative. */
  function IsOlder(mapDate: int, minDate: int): (older: bool)
    ensures older <==> mapDate < minDate
  {
    mapDate - minDate < 0
  }

  /** `ignore_or_compare`: true means "reject"; false when the setting is 0. */
  function IgnoreOrCompare(toIgnore: int, left: int, right: int): (reject: bool)
    ensures reject <==> toIgnore != 0 && left < right
  {
    !IgnoreConfig(toIgnore) && left < right
  }

  /** `ignore_or_equate`: true means "reject"; the limit is hit only on exact equality. */
  function IgnoreOrEquate(option: int, mapVal: int): (reject: bool)
    ensures reject <==> option != 0 && option == mapVal
  {
    !IgnoreConfig(option) && option == mapVal
  }

  /** Why a map was refused; `Message` gives the text `filter_map` returns for each. */
  datatype Reason =
    | QueueProbablyClosed
    | QueueClosed
    | TooManyInQueue
    | NoMoreRequests
    | Banned
    | TooOld
    | TooNew
    | TooShort
    | TooLong

  /** The reasons that concern the map itself rather than the queue or the user. */
  predicate AboutMap(reason: Reason) {
    reason.Banned? || reason.TooOld? || reason.TooNew? || reason.TooShort? || reason.TooLong?
  }

  /** The word each refusal text opens with: "Map " for the map's own
      properties, "Queue " for the queue's state, "You " for the user's limits. */
  function Subject(reason: Reason): (word: string)
    ensures |word| >= 4
  {
    if AboutMap(reason) then "Map "
    else if reason.QueueProbablyClosed? || reason.QueueClosed? then "Queue "
    else "You "
  }

  /** `filter_map`'s refusal texts, each its subject followed by the complaint. */
  function Message(reason: Reason, m: DrmMap, cfg: Config, c: Clock): (text: string)
    ensures |text| >= 6
    ensures text[..4] == "Map " <==> AboutMap(reason)
    ensures text[..6] == "Queue " <==> reason.QueueProbablyClosed? || reason.QueueClosed?
    ensures text[..4] == "You " <==> reason.TooManyInQueue? || reason.NoMoreRequests?
  {
    var subject, complaint := Subject(reason), Complaint(reason, m, cfg, c);
    Split(subject, complaint);
    var text := subject + complaint;
    assert text[..4] == subject[..4] && text[..6][..4] == text[..4];
    assert |subject| == 6 ==> text[..6] == subject;
    assert text[..4][0] == subject[0] && (subject[0] == 'M' <==> AboutMap(reason));
    text
  }

  /** What follows the subject in each refusal text. */
  function Complaint(reason: Reason, m: DrmMap, cfg: Config, c: Clock): (rest: string)
    ensures |rest| >= 2
  {
    match reason
    case QueueProbablyClosed => "is probably closed"
    case QueueClosed => "is closed!"
    case TooManyInQueue => "have too many songs in queue! (max is " + IntToString(cfg.queueMax) + ")"
    case NoMoreRequests => "have no more requests this session! (max is " + IntToString(cfg.sessionMax) + ")"
    case Banned => "is banned from being requested!"
    case TooOld =>
      "is older than " + c.formatDate(cfg.earliestDay * SecondsPerDay) + " (uploaded " + c.formatDate(m.uploadTime) + ")"
    case TooNew =>
      "is less than " + IntToString(cfg.minAge) + " years old (uploaded " + c.formatDate(m.uploadTime) + ")"
    case TooShort =>
      "is shorter than " + IntToString(cfg.lengthMin) + " seconds (is " + IntToString(m.duration) + " seconds)"
    case TooLong =>
      "is longer than " + IntToString(cfg.lengthMax) + " seconds (is " + IntToString(m.duration) + " seconds)"
  }

  /** Settings are `i32` in the source. */
  predicate ValidConfig(cfg: Config) {
    -0x8000_0000 <= cfg.minAge < 0x8000_0000
  }

  /** `filter_map`. `inQueue` is the number of the user's queue entries, None when
      the lookup failed; `status` and `sessionReqs` are what the store returned. */
  function FilterMap(m: DrmMap, inQueue: Option<nat>, status: Exec<DbResult<bool>>, sessionReqs: DbResult<int>,
                     cfg: Config, clock: Clock, modadd: Option<bool>): (r: Exec<Verdict>)
    requires ValidConfig(cfg)
    ensures r.Panics? <==> modadd != Some(true) && status.Panics?
  {
    if modadd == Some(true) then Returns(Admit)
    else match status
      case Panics => Panics
      case Returns(Err(_)) => Returns(Deny(QueueProbablyClosed))
      case Returns(Ok(open)) =>
        if !open then Returns(Deny(QueueClosed))
        else if inQueue.Some? && IgnoreOrEquate(cfg.queueMax, AsI32(inQueue.value)) then
          Returns(Deny(TooManyInQueue))
        else if sessionReqs.Ok? && IgnoreOrEquate(cfg.sessionMax, sessionReqs.value) then
          Returns(Deny(NoMoreRequests))
        // the ban check is inverted: a map the service reports as blacklisted passes
        else if !m.blacklisted then Returns(Deny(Banned))
        // inverted too: only maps uploaded before the earliest date pass
        else if !IsOlder(m.uploadTime, cfg.earliestDay * SecondsPerDay) then Returns(Deny(TooOld))
        // any representable subtraction rejects, whatever the upload time
        else if !IgnoreConfig(cfg.minAge) && clock.checkedSubDays(clock.now, AsU64(cfg.minAge)).Some? then
          Returns(Deny(TooNew))
        // "too short" compares the duration against the maximum
        else if IgnoreOrCompare(cfg.lengthMin, m.duration, cfg.lengthMax) then Returns(Deny(TooShort))
        else if IgnoreOrCompare(cfg.lengthMax, cfg.lengthMax, m.duration) then Returns(Deny(TooLong))
        else Returns(Admit)
  }

  /** The checks that follow the two limits, in plain comparisons. */
  predicate MapChecksPass(m: DrmMap, cfg: Config, clock: Clock)
    requires ValidConfig(cfg)
  {
    && m.blacklisted
    && m.uploadTime < cfg.earliestDay * SecondsPerDay
    && (cfg.minAge == 0 || clock.checkedSubDays(clock.now, AsU64(cfg.minAge)).None?)
    && !(cfg.lengthMin != 0 && m.duration < cfg.lengthMax)
    && !(cfg.lengthMax != 0 && cfg.lengthMax < m.duration)
  }

  /** Admission, stated without the chain: bypass, or an open queue, neither limit
      hit exactly, and every map check passing. */
  lemma AdmitIff(m: DrmMap, inQueue: Option<nat>, status: Exec<DbResult<bool>>, sessionReqs: DbResult<int>,
                 cfg: Config, clock: Clock, modadd: Option<bool>)
    requires ValidConfig(cfg)
    ensures FilterMap(m, inQueue, status, sessionReqs, cfg, clock, modadd) == Returns(Admit) <==>
      || modadd == Some(true)
      || (&& status == Returns(Ok(true))
          && !(inQueue.Some? && cfg.queueMax != 0 && AsI32(inQueue.value) == cfg.queueMax)
          && !(sessionReqs.Ok? && cfg.sessionMax != 0 && sessionReqs.value == cfg.sessionMax)
          && MapChecksPass(m, cfg, clock))
  {
  }

  /** `Some(true)` admits before any lookup is consulted; `Some(false)` behaves like `None`. */
  lemma ModaddBypass(m: DrmMap, inQueue: Option<nat>, status: Exec<DbResult<bool>>, sessionReqs: DbResult<int>,
                     cfg: Config, clock: Clock)
    requires ValidConfig(cfg)
    ensures FilterMap(m, inQueue, status, sessionReqs, cfg, clock, Some(true)) == Returns(Admit)
    ensures FilterMap(m, inQueue, status, sessionReqs, cfg, clock, Some(false))
         == FilterMap(m, inQueue, status, sessionReqs, cfg, clock, None)
  {
  }

  /** A closed queue and a failed status read give different texts. */
  lemma QueueStatusTexts(m: DrmMap, inQueue: Option<nat>, sessionReqs: DbResult<int>, cfg: Config, clock: Clock,
                         modadd: Option<bool>, e: DbError)
    requires ValidConfig(cfg) && modadd != Some(true)
    ensures FilterMap(m, inQueue, Returns(Ok(false)), sessionReqs, cfg, clock, modadd) == Returns(Deny(QueueClosed))
    ensures FilterMap(m, inQueue, Returns(Err(e)), sessionReqs, cfg, clock, modadd) == Returns(Deny(QueueProbablyClosed))
  {
  }

  /** The in-queue limit rejects only on exact equality; a larger count or a failed lookup passes it. */
  lemma QueueLimitIsExact(m: DrmMap, n: nat, sessionReqs: DbResult<int>, cfg: Config, clock: Clock, modadd: Option<bool>)
    requires ValidConfig(cfg) && modadd != Some(true) && n < 0x8000_0000
    ensures FilterMap(m, Some(n), Returns(Ok(true)), sessionReqs, cfg, clock, modadd) == Returns(Deny(TooManyInQueue))
        <==> cfg.queueMax != 0 && n == cfg.queueMax
    ensures FilterMap(m, None, Returns(Ok(true)), sessionReqs, cfg, clock, modadd) != Returns(Deny(TooManyInQueue))
  {
  }

  /** The session limit rejects only on exact equality; an unknown user passes it. */
  lemma SessionLimitIsExact(m: DrmMap, stored: int, cfg: Config, clock: Clock, modadd: Option<bool>)
    requires ValidConfig(cfg) && modadd != Some(true)
    ensures FilterMap(m, None, Returns(Ok(true)), Ok(stored), cfg, clock, modadd) == Returns(Deny(NoMoreRequests))
        <==> cfg.sessionMax != 0 && stored == cfg.sessionMax
    ensures FilterMap(m, None, Returns(Ok(true)), Err(NotFound(-1)), cfg, clock, modadd) != Returns(Deny(NoMoreRequests))
  {
  }

  /** Past the limits, a map that is not blacklisted is rejected as banned, and
      one uploaded at or after the earliest date as too old. */
  lemma BanAndDateAreInverted(m: DrmMap, cfg: Config, clock: Clock)
    requires ValidConfig(cfg)
    ensures !m.blacklisted ==>
      FilterMap(m, None, Returns(Ok(true)), Err(NotFound(-1)), cfg, clock, None) == Returns(Deny(Banned))
    ensures m.blacklisted && m.uploadTime >= cfg.earliestDay * SecondsPerDay ==>
      FilterMap(m, None, Returns(Ok(true)), Err(NotFound(-1)), cfg, clock, None) == Returns(Deny(TooOld))
  {
  }

  /** With a non-zero minimum age and a representable subtraction, every map that
      reaches the age check is rejected, whatever its upload time. */
  lemma MinAgeRejectsEveryMap(m: DrmMap, t: int, cfg: Config, clock: Clock)
    requires ValidConfig(cfg)
    requires m.blacklisted && m.uploadTime < cfg.earliestDay * SecondsPerDay
    requires t < cfg.earliestDay * SecondsPerDay
    requires cfg.minAge != 0 && clock.checkedSubDays(clock.now, AsU64(cfg.minAge)).Some?
    ensures FilterMap(m.(uploadTime := t), None, Returns(Ok(true)), Err(NotFound(-1)), cfg, clock, None)
         == Returns(Deny(TooNew))
  {
  }

  /** The length checks: "too short" compares against the maximum, "too long" against the maximum too. */
  lemma LengthChecks(m: DrmMap, cfg: Config, clock: Clock)
    requires ValidConfig(cfg)
    requires m.blacklisted && m.uploadTime < cfg.earliestDay * SecondsPerDay && cfg.minAge == 0
    ensures var r := FilterMap(m, None, Returns(Ok(true)), Err(NotFound(-1)), cfg, clock, None);
      && (r == Returns(Deny(TooShort)) <==> cfg.lengthMin != 0 && m.duration < cfg.lengthMax)
      && (r == Returns(Deny(TooLong)) <==>
            !(cfg.lengthMin != 0 && m.duration < cfg.lengthMax) && cfg.lengthMax != 0 && cfg.lengthMax < m.duration)
  {
  }
}

=== FILE: rust_main.dfy ===
/** The command functions of src/main.rs. Every request to the remote service
    either succeeds, with the reply given as an input, or fails (`None`); the
    mutating ones are recorded as calls whether or not they succeed. The lines
    each command prints are its output; `unwrap` on a failed request is a panic. */
module RustMain {
  import opened Wrappers
  import opened Schema
  import opened Decimal
  import opened Remote
  import opened Surgery
  import opened Effects
  import opened RustStore
  import RustFilter

  // ---- format_time ----

  /** `{:0>2}`: left-pad with '0' to width two. */
  function Pad2(s: string): (p: string)
    ensures |s| >= 2 ==> p == s
    ensures |s| < 2 ==> |p| == 2 && p[2 - |s|..] == s && forall i :: 0 <= i < 2 - |s| ==> p[i] == '0'
  {
    if |s| >= 2 then s else if |s| == 1 then "0" + s else "00"
  }

  /** Two decimal digits of `n < 100`. */
  function TwoDigits(n: nat): (s: string)
    requires n < 100
    ensures |s| == 2 && AllDigits(s)
  {
    [DigitChar(n / 10), DigitChar(n % 10)]
  }

  /** `format_time`: hours only when there are whole hours, minutes and seconds
      padded to two places, with Rust's truncating `/` and `%`. */
  function FormatTime(duration: int): (t: string)
    ensures |t| >= 3
  {
    var seconds := Rem(duration, 60);
    var minutes := Rem(Quot(duration, 60), 60);
    var hours := Quot(Quot(duration, 60), 60);
    if hours > 0 then IntToString(hours) + ":" + Pad2(IntToString(minutes)) + ":" + Pad2(IntToString(seconds))
    else IntToString(minutes) + ":" + Pad2(IntToString(seconds))
  }

  /** `s` is exactly two decimal digits. */
  predicate IsTwoDigits(s: string) {
    |s| == 2 && AllDigits(s)
  }

  /** Splits "front:dd" into the front and the two digits after the last colon. */
  function SplitLast(t: string): Option<(string, string)>
  {
    if |t| >= 3 && t[|t| - 3] == ':' && IsTwoDigits(t[|t| - 2..]) then Some((t[..|t| - 3], t[|t| - 2..]))
    else None
  }

  /** Reads "m:ss" or "h:mm:ss" back into seconds; the reference reading of a
      rendered length. */
  function ParseTime(t: string): (d: Option<int>)
    ensures d.Some? ==> d.value >= 0
  {
    var outer := SplitLast(t);
    if outer.None? then None
    else
      var inner := SplitLast(outer.value.0);
      if inner.Some? then
        if Canonical(inner.value.0) then
          Some(DigitsValue(inner.value.0) * 3600 + DigitsValue(inner.value.1) * 60 + DigitsValue(outer.value.1))
        else None
      else if Canonical(outer.value.0) then Some(DigitsValue(outer.value.0) * 60 + DigitsValue(outer.value.1))
      else None
  }

  lemma SplitJoined(front: string, dd: string)
    requires IsTwoDigits(dd)
    ensures SplitLast(front + ":" + dd) == Some((front, dd))
  {
    var t := front + ":" + dd;
    assert t[|t| - 3] == ':' && t[|t| - 2..] == dd && t[..|t| - 3] == front;
  }

  /** Reading "h:mm:ss" once both splits are known. */
  lemma ReadSplit(t: string, front: string, ss: string, hh: string, mm: string)
    requires SplitLast(t) == Some((front, ss)) && SplitLast(front) == Some((hh, mm)) && Canonical(hh)
    ensures ParseTime(t) == Some(DigitsValue(hh) * 3600 + DigitsValue(mm) * 60 + DigitsValue(ss))
  {
  }

  lemma SplitDigits(t: string)
    requires AllDigits(t)
    ensures SplitLast(t) == None
  {
    if |t| >= 3 {
      assert IsDigit(t[|t| - 3]);
    }
  }

  lemma TwoDigitsRender(n: nat)
    requires n < 100
    ensures DigitsValue(TwoDigits(n)) == n
    ensures n < 60 ==> Pad2(IntToString(n)) == TwoDigits(n)
  {
    var s := TwoDigits(n);
    assert s[..1] == [DigitChar(n / 10)];
    assert s[..1][..0] == [];
    assert DigitsValue(s[..1]) == n / 10;
    assert DigitsValue(s) == (n / 10) * 10 + n % 10;
    if n >= 10 {
      assert NatToString(n) == NatToString(n / 10) + [DigitChar(n % 10)];
    }
  }

  /** For a non-negative length: "h:mm:ss" when it has whole hours and "m:ss"
      otherwise, minutes and seconds below 60 and always two digits. */
  lemma FormatTimeShape(d: nat)
    ensures d / 3600 > 0 ==> FormatTime(d) == NatToString(d / 3600) + ":" + TwoDigits(d / 60 % 60) + ":" + TwoDigits(d % 60)
    ensures d / 3600 == 0 ==> FormatTime(d) == NatToString(d / 60) + ":" + TwoDigits(d % 60)
  {
    assert Quot(d, 60) == d / 60;
    assert (d / 60) / 60 == d / 3600;
    TwoDigitsRender(d % 60);
    TwoDigitsRender(d / 60 % 60);
    if d / 3600 == 0 {
      assert d / 60 < 60;
      assert d / 60 % 60 == d / 60;
    }
  }

  /** "h:mm:ss" reads as hours, minutes and seconds. */
  lemma ParseHours(hh: string, mm: string, ss: string)
    requires Canonical(hh) && IsTwoDigits(mm) && IsTwoDigits(ss)
    ensures ParseTime(hh + ":" + mm + ":" + ss) == Some(DigitsValue(hh) * 3600 + DigitsValue(mm) * 60 + DigitsValue(ss))
  {
    var front := hh + ":" + mm;
    SplitJoined(front, ss);
    SplitJoined(hh, mm);
    ReadSplit(front + ":" + ss, front, ss, hh, mm);
  }

  /** "m:ss" reads as minutes and seconds. */
  lemma ParseMinutes(mm: string, ss: string)
    requires Canonical(mm) && IsTwoDigits(ss)
    ensures ParseTime(mm + ":" + ss) == Some(DigitsValue(mm) * 60 + DigitsValue(ss))
  {
    SplitJoined(mm, ss);
    SplitDigits(mm);
  }

  /** "h:mm:ss" built from rendered parts reads back as their total. */
  lemma ClockTextReadsBack(h: nat, m: nat, sec: nat)
    requires m < 60 && sec < 60
    ensures ParseTime(NatToString(h) + ":" + TwoDigits(m) + ":" + TwoDigits(sec)) == Some(h * 3600 + m * 60 + sec)
  {
    var hh, mm, ss := NatToString(h), TwoDigits(m), TwoDigits(sec);
    assert DigitsValue(ss) == sec by { TwoDigitsRender(sec); }
    assert DigitsValue(mm) == m by { TwoDigitsRender(m); }
    assert DigitsValue(hh) == h by { ReadRendered(h); }
    assert ParseTime(hh + ":" + mm + ":" + ss) == Some(DigitsValue(hh) * 3600 + DigitsValue(mm) * 60 + DigitsValue(ss)) by {
      ParseHours(hh, mm, ss);
    }
  }

  /** The text "h:mm:ss" of a length with whole hours reads back as that length. */
  lemma HoursTextReadsBack(d: nat)
    requires d / 3600 > 0
    ensures ParseTime(NatToString(d / 3600) + ":" + TwoDigits(d / 60 % 60) + ":" + TwoDigits(d % 60)) == Some(d)
  {
    HoursMinutesSeconds(d);
    ClockTextReadsBack(d / 3600, d / 60 % 60, d % 60);
  }

  /** The text "m:ss" of a length under an hour reads back as that length. */
  lemma MinutesTextReadsBack(d: nat)
    requires d / 3600 == 0
    ensures ParseTime(NatToString(d / 60) + ":" + TwoDigits(d % 60)) == Some(d)
  {
    HoursMinutesSeconds(d);
    TwoDigitsRender(d % 60);
    ReadRendered(d / 60);
    ParseMinutes(NatToString(d / 60), TwoDigits(d % 60));
  }

  /** Reading a rendered non-negative length gives it back. */
  lemma FormatTimeReadsBack(d: nat)
    ensures ParseTime(FormatTime(d)) == Some(d)
  {
    FormatTimeShape(d);
    if d / 3600 > 0 {
      HoursTextReadsBack(d);
    } else {
      MinutesTextReadsBack(d);
    }
  }

  // ---- new ----

  /** `new`: only when the session history was read and is empty, clear the
      remote queue and every session counter. `history` is the number of
      history entries, None when the request failed; `cleared` says whether the
      clear request succeeded. */
  function New(db: Store, history: Option<nat>, cleared: bool): (r: RustOutcome)
    ensures r.Completed?
  {
    if history == Some(0) then
      var clearLine := if cleared then "Queue cleared from in-game!" else "unable to clear queue from in-game.";
      var (s, res) := ClearUserRequests(db);
      var dbLine := if res.Ok? then "Cleared requests from database." else "unable to clear requests from database.";
      Completed([Clear], [clearLine, dbLine], s)
    else Completed([], ["no need for new session"], db)
  }

  // ---- get_queue ----

  /** `reduce(+)` of the durations, `unwrap_or_default` making the empty sum 0. */
  function TotalDuration(q: seq<DrmMap>): (total: int)
    ensures |q| == 0 ==> total == 0
    ensures (forall i :: 0 <= i < |q| ==> q[i].duration >= 0) ==>
      total >= 0 && forall i :: 0 <= i < |q| ==> q[i].duration <= total
    decreases |q|
  {
    if |q| == 0 then 0 else TotalDuration(q[..|q| - 1]) + q[|q| - 1].duration
  }

  /** `join(", ")`. */
  function Join(parts: seq<string>): (s: string)
    ensures |parts| == 1 ==> s == parts[0]
    decreases |parts|
  {
    if |parts| == 0 then ""
    else if |parts| == 1 then parts[0]
    else Join(parts[..|parts| - 1]) + ", " + parts[|parts| - 1]
  }

  function SpotText(item: QueueItem): string {
    IntToString(item.spot) + " (" + item.item.title + ")"
  }

  function SpotTexts(items: seq<QueueItem>): (texts: seq<string>)
    ensures |texts| == |items|
    ensures forall i :: 0 <= i < |items| ==> texts[i] == SpotText(items[i])
  {
    seq(|items|, i requires 0 <= i < |items| => SpotText(items[i]))
  }

  /** The "your maps" sentence for the user's queue items. */
  function YourMaps(items: seq<QueueItem>): string {
    if |items| == 0 then ""
    else if |items| == 1 then " Your map: " + SpotText(items[0]) + "."
    else " Your maps: " + Join(SpotTexts(items)) + "."
  }

  function QueueHeader(q: seq<DrmMap>): string {
    "There are " + IntToString(|q|) + " maps in queue (length " + FormatTime(TotalDuration(q)) + ")."
  }

  /** `get_queue`: `queue` is the reply to "queue" and `where` the reply to
      "queue/where/<user>"; a failed `where` is unwrapped. */
  function GetQueue(db: Store, user: Option<string>, queue: Option<seq<DrmMap>>, where: Option<seq<QueueItem>>)
    : (r: RustOutcome)
    ensures r.calls == [] && r.store == db
  {
    match queue
    case None => Completed([], ["unable to get queue."], db)
    case Some(q) =>
      if |q| == 0 then Completed([], ["Queue is empty!"], db)
      else if user.None? then Completed([], [QueueHeader(q)], db)
      else match where
        case None => Panicked([], db)
        case Some(items) => Completed([], [QueueHeader(q) + YourMaps(items)], db)
  }

  // ---- queue ----

  /** `set_queue`: one "queue/open/<b>" request, a line only when it fails. */
  function SetQueue(db: Store, open: bool, ok: bool): (r: RustOutcome)
    ensures r.Completed? && r.calls == [SetOpen(open)] && r.store == db
    ensures |r.lines| == 0 <==> ok
  {
    Completed([SetOpen(open)], if ok then [] else ["Unable to set queue status in-game."], db)
  }

  /** `queue`: "open", "close" and "toggle" (from the reported status, nothing
      when that request fails); any other word only prints the usage. */
  function QueueCommand(db: Store, command: string, status: Option<bool>, ok: bool): (r: RustOutcome)
    ensures r.Completed? && r.store == db
  {
    match command
    case "open" => SetQueue(db, true, ok)
    case "close" => SetQueue(db, false, ok)
    case "toggle" => if status.Some? then SetQueue(db, !status.value, ok) else Completed([], [], db)
    case _ => Completed([], ["Possible commands are open/close/toggle."], db)
  }

  // ---- request ----

  /** The remote service's part in one request: the queried map (None when the
      query failed), how many entries the user has (None when that lookup
      failed), and the filter's clock. */
  datatype RequestReplies = RequestReplies(map_: Option<DrmMap>, inQueue: Option<nat>, clock: RustFilter.Clock)

  /** The add call: with a service name the service variant, else the plain one. */
  function AddCall(bsr: string, user: string, service: Option<string>): Call {
    if service.Some? then AddKeyWithService(bsr, user, service.value) else AddKey(bsr, Some(user))
  }

  /** `request`: query the map (unwrapped), run the filter against the store,
      enqueue, and with a session maximum bump the user's counter. An unknown
      user goes through `add_user_requests`, which fails, so they never get a
      row, and the message then claims `session_max - 1` left. */
  function Request(db: Store, bsr: string, user: string, service: Option<string>, modadd: Option<bool>,
                   replies: RequestReplies, cfg: RustFilter.Config): (r: RustOutcome)
    requires RustFilter.ValidConfig(cfg)
    ensures r.store.queueStatus == db.queueStatus
    ensures r.store.sessionRequests.Keys == db.sessionRequests.Keys
  {
    match replies.map_
    case None => Panicked([], db)
    case Some(m) =>
      match RustFilter.FilterMap(m, replies.inQueue, GetQueueStatus(db), GetUserRequests(db, user), cfg, replies.clock, modadd)
      case Panics => Panicked([], db)
      case Returns(Deny(reason)) => Completed([], [RustFilter.Message(reason, m, cfg, replies.clock)], db)
      case Returns(Admit) =>
        var calls := [AddCall(bsr, user, service)];
        var added := bsr + " added to queue.";
        if cfg.sessionMax > 0 then
          match GetUserRequests(db, user)
          case Ok(count) =>
            var (s, _) := SetUserRequests(db, user, count + 1);
            Completed(calls, [added + " You have " + IntToString(count + 1) + " requests left."], s)
          case Err(_) =>
            var (s, _) := AddUserRequests(db, user);
            Completed(calls, [added + " You have " + IntToString(cfg.sessionMax - 1) + " requests left."], s)
        else Completed(calls, [added], db)
  }

  // ---- move_to_top ----

  /** `move_to_top`: the user's LAST queue item goes to spot 1; an empty list
      is unwrapped, a failed lookup does nothing. */
  function MoveToTop(db: Store, where: Option<seq<QueueItem>>, moved: bool): (r: RustOutcome)
    ensures r.store == db
  {
    match where
    case None => Completed([], [], db)
    case Some(items) =>
      if |items| == 0 then Panicked([], db)
      else
        var last := items[|items| - 1];
        Completed([Move(last.spot, 1)],
                  [if moved then "Map " + last.item.key + " moved to top." else "Unable to move your recent request to top."],
                  db)
  }

  // ---- oops and refund_request ----

  /** A queue entry belongs to `user`; an entry without requester counts as "". */
  predicate OwnedBy(m: DrmMap, user: string) {
    m.user.GetOr("") == user
  }

  /** The replies `oops` may see: the queue, the user's queue items, and the key
      the removal reports (None when the removal failed). */
  datatype OopsReplies = OopsReplies(queue: Option<seq<DrmMap>>, where: Option<seq<QueueItem>>, removed: Option<string>)

  /** `oops`: whether a removal was reported, next to the outcome. */
  datatype OopsResult = OopsResult(outcome: RustOutcome, refund: bool)

  /** `oops`: remove the given id when it is one of the user's entries, or the
      key of the user's last queue item when no id is given. */
  function Oops(db: Store, user: string, id: Option<string>, replies: OopsReplies): (r: OopsResult)
    ensures r.outcome.store == db
    ensures r.refund ==> r.outcome.Completed? && |r.outcome.calls| == 1 && r.outcome.calls[0].Remove?
  {
    match replies.queue
    case None => OopsResult(Completed([], ["Unable to get queue."], db), false)
    case Some(q) =>
      if |q| == 0 then OopsResult(Completed([], ["Queue is empty!"], db), false)
      else
        var reqs := Filter(q, (m: DrmMap) => OwnedBy(m, user));
        if |reqs| == 0 then OopsResult(Completed([], ["You have no requests in queue!"], db), false)
        else
          var key: Option<string> :=
            match id
            case Some(bsr) =>
              if exists i :: 0 <= i < |reqs| && reqs[i].key == bsr then Some(bsr) else None
            case None =>
              if replies.where.Some? && |replies.where.value| > 0 then
                Some(replies.where.value[|replies.where.value| - 1].item.key)
              else None;
          if key.None? then
            if id.Some? then
              OopsResult(Completed([], ["Map " + id.value + " is either not in the queue or is not your request!"], db), false)
            else OopsResult(Panicked([], db), false)
          else
            match replies.removed
            case Some(k) => OopsResult(Completed([Remove(key.value)], ["Map " + k + " removed from queue."], db), true)
            case None => OopsResult(Completed([Remove(key.value)], ["Unable to remove map from queue."], db), false)
  }

  /** `refund_request`: with a session maximum, a known user's count goes down
      by one, with no floor at 0. */
  function RefundRequest(db: Store, user: string, sessionMax: int): (r: RustOutcome)
    ensures r.Completed? && r.calls == []
  {
    if sessionMax > 0 then
      match GetUserRequests(db, user)
      case Ok(count) =>
        var (s, res) := SetUserRequests(db, user, count - 1);
        Completed([], [if res.Ok? then "Request refunded." else "Unable to refund request"], s)
      case Err(_) => Completed([], ["User not found."], db)
    else Completed([], [], db)
  }

  /** The Oops arm of `main`: refund only when `oops` reported a removal. */
  function OopsCommand(db: Store, user: string, id: Option<string>, replies: OopsReplies, sessionMax: int)
    : (r: RustOutcome)
    ensures r.calls == Oops(db, user, id, replies).outcome.calls
    ensures r.store.queueStatus == db.queueStatus
    ensures r.store.sessionRequests.Keys == db.sessionRequests.Keys
    ensures forall u :: u in db.sessionRequests && u != user ==> r.store.sessionRequests[u] == db.sessionRequests[u]
  {
    var o := Oops(db, user, id, replies);
    if o.refund then
      var refund := RefundRequest(db, user, sessionMax);
      Completed(o.outcome.calls, o.outcome.lines + refund.lines, refund.store)
    else o.outcome
  }

  // ---- Properties ----

  /** "new" acts only on an empty, successfully read history: then the remote
      queue is cleared and every user is unknown to the store. */
  lemma NewOnlyOnEmptyHistory(db: Store, history: Option<nat>, cleared: bool, user: string)
    ensures history == Some(0) ==>
      New(db, history, cleared).calls == [Clear]
      && GetUserRequests(New(db, history, cleared).store, user) == Err(NotFound(-1))
      && New(db, history, cleared).store.queueStatus == db.queueStatus
    ensures history != Some(0) ==> New(db, history, cleared) == Completed([], ["no need for new session"], db)
  {
    ClearThenNotFound(db, user);
  }

  /** `get_queue` prints "Queue is empty!" for an empty queue, and otherwise the
      header followed by the user's part; a failed lookup of the user's items panics. */
  lemma GetQueueLines(db: Store, user: string, q: seq<DrmMap>, items: seq<QueueItem>)
    ensures GetQueue(db, Some(user), Some([]), Some(items)) == Completed([], ["Queue is empty!"], db)
    ensures |q| > 0 ==> GetQueue(db, Some(user), Some(q), Some(items)) == Completed([], [QueueHeader(q) + YourMaps(items)], db)
    ensures |q| > 0 ==> GetQueue(db, Some(user), Some(q), None).Panicked?
  {
  }

  /** The user's part: nothing, one "spot (title)", or all of them joined by ", ". */
  lemma YourMapsTexts(items: seq<QueueItem>)
    ensures |items| == 0 ==> YourMaps(items) == ""
    ensures |items| == 1 ==> YourMaps(items) == " Your map: " + IntToString(items[0].spot) + " (" + items[0].item.title + ")."
    ensures |items| > 1 ==> YourMaps(items) == " Your maps: " + Join(SpotTexts(items)) + "."
  {
  }

  /** The reported length is the rendered sum of the durations. */
  lemma {:induction false} TotalDurationIsSum(q: seq<DrmMap>, extra: DrmMap)
    ensures TotalDuration(q + [extra]) == TotalDuration(q) + extra.duration
    ensures TotalDuration([extra] + q) == extra.duration + TotalDuration(q)
    decreases |q|
  {
    assert (q + [extra])[..|q|] == q;
    if |q| > 0 {
      var front := q[..|q| - 1];
      TotalDurationIsSum(front, extra);
      assert ([extra] + q)[..|q|] == [extra] + front;
    } else {
      assert [extra] + q == [extra];
      assert [extra][..0] == [];
    }
  }

  /** Several spots are joined by ", ": one separator between consecutive entries. */
  lemma JoinAppends(parts: seq<string>, last: string)
    requires |parts| > 0
    ensures Join(parts + [last]) == Join(parts) + ", " + last
  {
    assert (parts + [last])[..|parts|] == parts;
  }

  /** The queue words: "open" and "close" set the flag, "toggle" negates the
      reported one, anything else sends nothing. */
  lemma QueueCommandWords(db: Store, command: string, status: Option<bool>, ok: bool)
    ensures command == "open" ==> QueueCommand(db, command, status, ok).calls == [SetOpen(true)]
    ensures command == "close" ==> QueueCommand(db, command, status, ok).calls == [SetOpen(false)]
    ensures command == "toggle" && status.Some? ==> QueueCommand(db, command, status, ok).calls == [SetOpen(!status.value)]
    ensures command == "toggle" && status.None? ==> QueueCommand(db, command, status, ok).calls == []
    ensures command !in {"open", "close", "toggle"} ==>
      QueueCommand(db, command, status, ok) == Completed([], ["Possible commands are open/close/toggle."], db)
  {
  }

  /** An admitted request enqueues the id once. With a session maximum a known
      user's count goes from r to r + 1 and the message reports r + 1 "left"
      (the number used); an unknown user stays unknown and is told
      `session_max - 1`. Without a maximum the store is untouched. */
  lemma AdmittedRequest(db: Store, bsr: string, user: string, service: Option<string>, modadd: Option<bool>,
                        replies: RequestReplies, cfg: RustFilter.Config)
    requires RustFilter.ValidConfig(cfg)
    requires replies.map_.Some?
    requires RustFilter.FilterMap(replies.map_.value, replies.inQueue, GetQueueStatus(db), GetUserRequests(db, user),
                                  cfg, replies.clock, modadd) == Returns(RustFilter.Admit)
    ensures var r := Request(db, bsr, user, service, modadd, replies, cfg);
      && r.Completed? && r.calls == [AddCall(bsr, user, service)]
      && (cfg.sessionMax > 0 && user in db.sessionRequests ==>
            GetUserRequests(r.store, user) == Ok(db.sessionRequests[user] + 1)
            && r.lines == [bsr + " added to queue." + " You have " + IntToString(db.sessionRequests[user] + 1) + " requests left."])
      && (cfg.sessionMax > 0 && user !in db.sessionRequests ==>
            r.store == db
            && r.lines == [bsr + " added to queue." + " You have " + IntToString(cfg.sessionMax - 1) + " requests left."])
      && (cfg.sessionMax <= 0 ==> r.store == db && r.lines == [bsr + " added to queue."])
  {
    SetThenGetUserRequests(db, user, if user in db.sessionRequests then db.sessionRequests[user] + 1 else 0);
  }

  /** A refused request prints the filter's message and changes nothing; a mod
      add is never refused. */
  lemma RefusedRequest(db: Store, bsr: string, user: string, service: Option<string>, modadd: Option<bool>,
                       replies: RequestReplies, cfg: RustFilter.Config, reason: RustFilter.Reason)
    requires RustFilter.ValidConfig(cfg)
    requires replies.map_.Some?
    requires RustFilter.FilterMap(replies.map_.value, replies.inQueue, GetQueueStatus(db), GetUserRequests(db, user),
                                  cfg, replies.clock, modadd) == Returns(RustFilter.Deny(reason))
    ensures modadd != Some(true)
    ensures Request(db, bsr, user, service, modadd, replies, cfg)
         == Completed([], [RustFilter.Message(reason, replies.map_.value, cfg, replies.clock)], db)
  {
  }

  /** An unknown user never gains a counter, so the session limit never stops them. */
  lemma UnknownUserStaysUnlimited(db: Store, bsr: string, user: string, service: Option<string>,
                                  modadd: Option<bool>, replies: RequestReplies, cfg: RustFilter.Config)
    requires RustFilter.ValidConfig(cfg)
    requires user !in db.sessionRequests
    ensures user !in Request(db, bsr, user, service, modadd, replies, cfg).store.sessionRequests
  {
  }

  /** `move_to_top` moves the user's last queue item. */
  lemma MoveToTopMovesLast(db: Store, items: seq<QueueItem>, moved: bool)
    requires |items| > 0
    ensures MoveToTop(db, Some(items), moved).calls == [Move(items[|items| - 1].spot, 1)]
  {
  }

  /** `oops` removes nothing when the queue is empty, when the user (an entry
      without requester counting as "") owns no entry, or when a given id is not
      among their entries; a given id they own is the one removed. */
  lemma OopsRemovals(db: Store, user: string, id: Option<string>, replies: OopsReplies)
    requires replies.queue.Some?
    ensures var q := replies.queue.value;
      var r := Oops(db, user, id, replies);
      && (|q| == 0 ==> r.outcome.calls == [] && !r.refund)
      && ((forall i :: 0 <= i < |q| ==> !OwnedBy(q[i], user)) ==> r.outcome.calls == [] && !r.refund)
      && (id.Some? && (forall i :: 0 <= i < |q| ==> !(OwnedBy(q[i], user) && q[i].key == id.value)) ==>
            r.outcome.calls == [] && !r.refund)
      && (id.Some? && (exists i :: 0 <= i < |q| && OwnedBy(q[i], user) && q[i].key == id.value) ==>
            r.outcome.calls == [Remove(id.value)] && (r.refund <==> replies.removed.Some?))
  {
    var q := replies.queue.value;
    var reqs := Filter(q, (m: DrmMap) => OwnedBy(m, user));
    if |reqs| > 0 {
      assert reqs[0] in reqs;
    }
    if id.Some? && exists i :: 0 <= i < |q| && OwnedBy(q[i], user) && q[i].key == id.value {
      var i :| 0 <= i < |q| && OwnedBy(q[i], user) && q[i].key == id.value;
      assert q[i] in reqs;
      var j :| 0 <= j < |reqs| && reqs[j] == q[i];
    }
    if id.Some? && exists j :: 0 <= j < |reqs| && reqs[j].key == id.value {
      var j :| 0 <= j < |reqs| && reqs[j].key == id.value;
      assert reqs[j] in q;
    }
  }

  /** Without an id, `oops` removes the key of the user's last queue item. */
  lemma OopsWithoutIdRemovesLast(db: Store, user: string, replies: OopsReplies)
    requires replies.queue.Some? && replies.where.Some? && |replies.where.value| > 0
    requires exists i :: 0 <= i < |replies.queue.value| && OwnedBy(replies.queue.value[i], user)
    ensures var items := replies.where.value;
      Oops(db, user, None, replies).outcome.calls == [Remove(items[|items| - 1].item.key)]
  {
    var q := replies.queue.value;
    var i :| 0 <= i < |q| && OwnedBy(q[i], user);
    assert q[i] in Filter(q, (m: DrmMap) => OwnedBy(m, user));
  }

  /** A refund lowers a known user's count by one, down to -1 from 0; an unknown
      user or a zero maximum leaves the store as it was. */
  lemma RefundHasNoFloor(db: Store, user: string, sessionMax: int)
    ensures sessionMax > 0 && user in db.sessionRequests ==>
      GetUserRequests(RefundRequest(db, user, sessionMax).store, user) == Ok(db.sessionRequests[user] - 1)
    ensures sessionMax > 0 && user in db.sessionRequests && db.sessionRequests[user] == 0 ==>
      GetUserRequests(RefundRequest(db, user, sessionMax).store, user) == Ok(-1)
    ensures sessionMax <= 0 || user !in db.sessionRequests ==> RefundRequest(db, user, sessionMax).store == db
  {
    if user in db.sessionRequests {
      SetThenGetUserRequests(db, user, db.sessionRequests[user] - 1);
    }
  }

  /** The Oops arm refunds exactly when `oops` reported a removal. */
  lemma OopsCommandRefundsOnRemoval(db: Store, user: string, id: Option<string>, replies: OopsReplies, sessionMax: int)
    ensures var o := Oops(db, user, id, replies);
      var r := OopsCommand(db, user, id, replies, sessionMax);
      && r.calls == o.outcome.calls
      && (o.refund ==> r.store == RefundRequest(db, user, sessionMax).store)
      && (!o.refund ==> r == o.outcome && r.store == db)
  {
  }
}

=== FILE: rust_store.dfy ===
/** The SQLite store of src/database.rs: `QueueStatus(timestamp PRIMARY KEY, open)`
    and `SessionRequests(user PRIMARY KEY, requests)`. Statement errors come back
    as `DbResult` errors; `unwrap` on a missing row is a panic. */
module RustStore {
  import SessionLog

  datatype DbError = SqliteError | NotFound(code: int)

  datatype DbResult<T> = Ok(value: T) | Err(error: DbError)

  /** A call that either returns or panics. */
  datatype Exec<T> = Returns(value: T) | Panics

  datatype Store = Store(queueStatus: SessionLog.Log, sessionRequests: map<string, int>)

  /** `new_session(timestamp, open)`: INSERT of the caller's flag; a repeated timestamp is a constraint error. */
  function NewSession(db: Store, timestamp: int, open: bool): (r: (Store, DbResult<()>))
    ensures r.1.Ok? <==> timestamp !in db.queueStatus
    ensures r.1.Ok? ==> r.0.queueStatus == db.queueStatus[timestamp := open]
    ensures r.1.Err? ==> r.0 == db
    ensures r.0.sessionRequests == db.sessionRequests
  {
    if timestamp in db.queueStatus then (db, Err(SqliteError))
    else (db.(queueStatus := db.queueStatus[timestamp := open]), Ok(()))
  }

  /** Whether a stored INTEGER fits the `i32` field `QueueStatus.timestamp`
      of src/database/schema.rs; `row.get` fails on any other value. */
  predicate FitsI32(v: int) {
    -0x8000_0000 <= v < 0x8000_0000
  }

  /** `get_queue_status`: the flag of the newest row. The first `unwrap` panics
      on an empty table, the second when the newest timestamp does not read as
      an `i32` (any time from 2038-01-19 on, since `new_session` stores an i64). */
  function GetQueueStatus(db: Store): (r: Exec<DbResult<bool>>)
    ensures r.Panics? <==> |db.queueStatus| == 0 || !FitsI32(SessionLog.Newest(db.queueStatus))
    ensures r.Returns? ==> r.value.Ok?
    ensures r.Returns? ==> exists t :: (t in db.queueStatus && r.value.value == db.queueStatus[t]
                                        && FitsI32(t) && forall k :: k in db.queueStatus ==> k <= t)
  {
    if |db.queueStatus| == 0 then Panics
    else
      var newest := SessionLog.Newest(db.queueStatus);
      if !FitsI32(newest) then Panics
      else Returns(Ok(db.queueStatus[newest]))
  }

  /** `set_queue_status`: UPDATE of the newest row; with no rows it updates nothing and succeeds. */
  function SetQueueStatus(db: Store, open: bool): (r: (Store, DbResult<()>))
    ensures r.1.Ok?
    ensures r.0.queueStatus.Keys == db.queueStatus.Keys
    ensures r.0.sessionRequests == db.sessionRequests
  {
    if |db.queueStatus| == 0 then (db, Ok(()))
    else
      var newest := SessionLog.Newest(db.queueStatus);
      (db.(queueStatus := db.queueStatus[newest := open]), Ok(()))
  }

  /** `get_user_requests`: the stored count, or `NotFound(-1)`; no row is created. */
  function GetUserRequests(db: Store, user: string): (r: DbResult<int>)
    ensures r.Ok? <==> user in db.sessionRequests
    ensures r.Ok? ==> r.value == db.sessionRequests[user]
    ensures r.Err? ==> r.error == NotFound(-1)
  {
    if user in db.sessionRequests then Ok(db.sessionRequests[user]) else Err(NotFound(-1))
  }

  /** `add_user_requests`: its statement `VALUES ?1, 0` lacks the parentheses
      SQLite's grammar requires, so it never parses and never inserts. */
  function AddUserRequests(db: Store, user: string): (r: (Store, DbResult<()>))
    ensures r.0 == db && r.1 == Err(SqliteError)
  {
    (db, Err(SqliteError))
  }

  /** `set_user_requests`: an UPDATE, so an absent user stays absent. */
  function SetUserRequests(db: Store, user: string, n: int): (r: (Store, DbResult<()>))
    ensures r.1.Ok?
    ensures r.0.sessionRequests.Keys == db.sessionRequests.Keys
    ensures r.0.queueStatus == db.queueStatus
  {
    if user in db.sessionRequests then (db.(sessionRequests := db.sessionRequests[user := n]), Ok(()))
    else (db, Ok(()))
  }

  /** `clear_user_requests`: DELETE of every row. */
  function ClearUserRequests(db: Store): (r: (Store, DbResult<()>))
    ensures r.1.Ok? && |r.0.sessionRequests| == 0 && r.0.queueStatus == db.queueStatus
  {
    (db.(sessionRequests := map[]), Ok(()))
  }

  // ---- Properties relating the operations ----

  /** A set is read back for a known user; for an unknown one it is an Ok no-op. */
  lemma SetThenGetUserRequests(db: Store, user: string, n: int)
    ensures user in db.sessionRequests ==> GetUserRequests(SetUserRequests(db, user, n).0, user) == Ok(n)
    ensures user !in db.sessionRequests ==>
      SetUserRequests(db, user, n) == (db, Ok(())) && GetUserRequests(db, user) == Err(NotFound(-1))
  {
  }

  /** After clearing, every user is unknown. */
  lemma ClearThenNotFound(db: Store, user: string)
    ensures GetUserRequests(ClearUserRequests(db).0, user) == Err(NotFound(-1))
  {
  }

  /** A session newer than all others reads back with the flag the caller stored,
      closed or open, when its timestamp fits an `i32`; otherwise reading panics.
      An empty table panics on read. */
  lemma NewSessionKeepsFlag(db: Store, timestamp: int, open: bool)
    requires forall t :: t in db.queueStatus ==> t < timestamp
    ensures FitsI32(timestamp) ==> GetQueueStatus(NewSession(db, timestamp, open).0) == Returns(Ok(open))
    ensures !FitsI32(timestamp) ==> GetQueueStatus(NewSession(db, timestamp, open).0) == Panics
    ensures |db.queueStatus| == 0 ==> GetQueueStatus(db) == Panics
  {
    SessionLog.NewestAfterAppend(db.queueStatus, timestamp, open);
  }

  /** Setting the status is read back when the newest timestamp fits an `i32`,
      and the read panics as before otherwise; every other row is untouched. */
  lemma SetThenGetQueueStatus(db: Store, open: bool)
    requires |db.queueStatus| > 0
    ensures var s := SetQueueStatus(db, open).0;
      && (FitsI32(SessionLog.Newest(db.queueStatus)) ==> GetQueueStatus(s) == Returns(Ok(open)))
      && (!FitsI32(SessionLog.Newest(db.queueStatus)) ==> GetQueueStatus(s) == Panics)
      && forall t :: t in db.queueStatus && t != SessionLog.Newest(db.queueStatus) ==> s.queueStatus[t] == db.queueStatus[t]
  {
    var newest := SessionLog.Newest(db.queueStatus);
    SessionLog.NewestAfterUpdate(db.queueStatus, newest, open);
  }
}

=== FILE: schema.dfy ===
/** Record shapes of the remote queue service, reduced to the fields the logic reads. */
module Schema {
  import opened Wrappers

  /** One difficulty of a map: note-jump speed and notes per second. */
  datatype Difficulty = Difficulty(njs: real, nps: real)

  /** Go's `drm.MapData`. Times are whole seconds since the Unix epoch. */
  datatype MapData = MapData(
    key: string,
    hash: string,
    user: string,
    duration: int,
    uploadTime: int,
    diffs: seq<Difficulty>)

  /** Go's zero value `drm.MapData{}`. */
  const EmptyMap := MapData("", "", "", 0, 0, [])

  /** Rust's `DRMMap`; the requester is optional there. */
  datatype DrmMap = DrmMap(
    key: string,
    user: Option<string>,
    title: string,
    duration: int,
    uploadTime: int,
    blacklisted: bool)

  /** Rust's `DRMQueueItem`: a queue spot and the map in it. */
  datatype QueueItem = QueueItem(spot: int, item: DrmMap)
}

=== FILE: session_log.dfy ===
/** The queue-status table shared by both stores: rows keyed by a timestamp,
    each holding an open flag; the current status is the row with the greatest
    timestamp ("ORDER BY timestamp DESC LIMIT 1"). */
module SessionLog {

  type Log = map<int, bool>

  lemma {:induction false} GreatestExists(keys: set<int>)
    requires |keys| > 0
    ensures exists t :: t in keys && forall k :: k in keys ==> k <= t
    decreases |keys|
  {
    if forall k :: k !in keys {
      assert false;
    }
    var x :| x in keys;
    if keys != {x} {
      var rest := keys - {x};
      GreatestExists(rest);
      var t :| t in rest && forall k :: k in rest ==> k <= t;
      assert forall k :: k in keys ==> k == x || k in rest;
      if t < x {
        assert forall k :: k in keys ==> k <= x;
      } else {
        assert forall k :: k in keys ==> k <= t;
      }
    } else {
      assert forall k :: k in keys ==> k <= x;
    }
  }

  /** The timestamp of the most recent row of a non-empty log. */
  function Newest(log: Log): (t: int)
    requires |log| > 0
    ensures t in log
    ensures forall k :: k in log ==> k <= t
  {
    GreatestExists(log.Keys);
    var t :| t in log && forall k :: k in log ==> k <= t;
    t
  }

  /** The newest row is the only row whose timestamp no other row exceeds. */
  lemma NewestUnique(log: Log, t: int)
    requires t in log && forall k :: k in log ==> k <= t
    ensures Newest(log) == t
  {
  }

  /** Adding a row later than every existing one makes it the newest. */
  lemma NewestAfterAppend(log: Log, t: int, open: bool)
    requires forall k :: k in log ==> k < t
    ensures Newest(log[t := open]) == t
  {
    NewestUnique(log[t := open], t);
  }

  /** Changing the flag of an existing row leaves the newest timestamp where it was. */
  lemma NewestAfterUpdate(log: Log, t: int, open: bool)
    requires t in log
    ensures Newest(log[t := open]) == Newest(log)
  {
    var n := Newest(log);
    NewestUnique(log[t := open], n);
  }
}

=== FILE: surgery.dfy ===
/** Sequence surgery used by the two undo implementations. */
module Surgery {

  /** The loop of the parser's undo: visit the indices in order and keep every
      element whose index is not `skip`. */
  function DropIndex<T>(s: seq<T>, skip: int): (kept: seq<T>)
    ensures 0 <= skip < |s| ==> kept == s[..skip] + s[skip + 1..]
    ensures !(0 <= skip < |s|) ==> kept == s
    decreases |s|
  {
    if |s| == 0 then []
    else
      var front := DropIndex(s[..|s| - 1], skip);
      var kept := if |s| - 1 != skip then front + [s[|s| - 1]] else front;
      assert 0 <= skip < |s| - 1 ==> s[..|s| - 1][skip + 1..] + [s[|s| - 1]] == s[skip + 1..];
      assert 0 <= skip < |s| - 1 ==> s[..|s| - 1][..skip] == s[..skip];
      assert skip == |s| - 1 ==> s[skip + 1..] == [];
      assert !(0 <= skip < |s|) ==> s[..|s| - 1] + [s[|s| - 1]] == s;
      kept
  }

  /** Removing an index in range shortens by one and keeps the others in order. */
  lemma DropIndexShape<T>(s: seq<T>, skip: int)
    requires 0 <= skip < |s|
    ensures |DropIndex(s, skip)| == |s| - 1
    ensures forall i :: 0 <= i < skip ==> DropIndex(s, skip)[i] == s[i]
    ensures forall i :: skip <= i < |s| - 1 ==> DropIndex(s, skip)[i] == s[i + 1]
    ensures multiset(DropIndex(s, skip)) + multiset{s[skip]} == multiset(s)
  {
    assert s == s[..skip] + [s[skip]] + s[skip + 1..];
  }

  /** The elements for which `keep` holds, in their original order. */
  function Filter<T(!new)>(s: seq<T>, keep: T -> bool): (kept: seq<T>)
    ensures |kept| <= |s|
    ensures forall x :: x in kept <==> x in s && keep(x)
    decreases |s|
  {
    if |s| == 0 then []
    else
      var rest := Filter(s[1..], keep);
      assert forall x :: x in s <==> x == s[0] || x in s[1..];
      if keep(s[0]) then [s[0]] + rest else rest
  }

  /** Filtering commutes with concatenation, so relative order is preserved. */
  lemma {:induction false} FilterAppend<T(!new)>(a: seq<T>, b: seq<T>, keep: T -> bool)
    ensures Filter(a + b, keep) == Filter(a, keep) + Filter(b, keep)
    decreases |a|
  {
    if |a| > 0 {
      assert (a + b)[1..] == a[1..] + b;
      FilterAppend(a[1..], b, keep);
    } else {
      assert a + b == b;
    }
  }

  /** When every element is kept, nothing changes. */
  lemma {:induction false} FilterKeepsAll<T(!new)>(s: seq<T>, keep: T -> bool)
    requires forall i :: 0 <= i < |s| ==> keep(s[i])
    ensures Filter(s, keep) == s
    decreases |s|
  {
    if |s| > 0 {
      FilterKeepsAll(s[1..], keep);
      assert [s[0]] + s[1..] == s;
    }
  }
}

=== FILE: unix_epoch.dfy ===
/** `UnixTime` of utils/unixepoch.go: a time that travels in JSON as a bare
    integer count of seconds since the Unix epoch. The JSON text is a string of
    characters; the integer grammar is that of section 6 of RFC 8259 and the
    insignificant whitespace that of its section 2. */
module UnixEpoch {
  import opened Decimal

  /** `time.Time` reduced to what `Unix()` and `time.Unix` use: whole seconds and
      the nanoseconds within that second. */
  datatype UnixTime = UnixTime(sec: int, nsec: int)

  const Int64Min := -0x8000_0000_0000_0000
  const Int64Max := 0x7FFF_FFFF_FFFF_FFFF

  predicate InInt64(i: int) {
    Int64Min <= i <= Int64Max
  }

  /** A well-formed time: `Unix()` fits an `int64` and the nanoseconds are in range. */
  predicate Valid(u: UnixTime) {
    InInt64(u.sec) && 0 <= u.nsec < 1_000_000_000
  }

  /** Insignificant JSON whitespace. */
  predicate IsSpace(c: char) {
    c == ' ' || c == '\t' || c == '\n' || c == '\r'
  }

  predicate AllSpace(s: string) {
    forall i :: 0 <= i < |s| ==> IsSpace(s[i])
  }

  function TrimLeft(s: string): (t: string)
    ensures |t| <= |s| && t == s[|s| - |t|..]
    ensures |t| > 0 ==> !IsSpace(t[0])
    decreases |s|
  {
    if |s| > 0 && IsSpace(s[0]) then TrimLeft(s[1..]) else s
  }

  function TrimRight(s: string): (t: string)
    ensures |t| <= |s| && t == s[..|t|]
    ensures |t| > 0 ==> !IsSpace(t[|t| - 1])
    decreases |s|
  {
    if |s| > 0 && IsSpace(s[|s| - 1]) then TrimRight(s[..|s| - 1]) else s
  }

  /** The JSON value with surrounding whitespace removed. */
  function Trim(s: string): string {
    TrimRight(TrimLeft(s))
  }

  /** `-?(0|[1-9][0-9]*)`: an optional minus, then digits without a superfluous leading zero. */
  predicate IsJsonInteger(t: string) {
    if |t| > 0 && t[0] == '-' then Canonical(t[1..]) else Canonical(t)
  }

  /** The value of a JSON integer literal. */
  function ReadInteger(t: string): int
    requires IsJsonInteger(t)
  {
    if |t| > 0 && t[0] == '-' then -(DigitsValue(t[1..]) as int) else DigitsValue(t)
  }

  /** What decoding a JSON text into an `int64` yields: `Null` for the literal
      `null` (a no-op that keeps the zero), the number for an integer literal
      within range, and `Invalid` for everything else (another JSON value, a
      fraction or exponent, an out-of-range integer, or malformed text). */
  datatype Decoded = Null | Number(value: int) | Invalid

  function DecodeInt64(b: string): (d: Decoded)
    ensures d.Number? ==> InInt64(d.value)
  {
    var t := Trim(b);
    if t == "null" then Null
    else if IsJsonInteger(t) && InInt64(ReadInteger(t)) then Number(ReadInteger(t))
    else Invalid
  }

  /** The receiver after `UnmarshalJSON`, and whether it returned an error. */
  datatype Unmarshalled = Unmarshalled(receiver: UnixTime, failed: bool)

  /** `UnmarshalJSON`: an integer sets the time to that many seconds and no
      nanoseconds; `null` leaves the local zero in place and so sets the epoch;
      anything else is an error that leaves the receiver as it was. */
  function UnmarshalJSON(u: UnixTime, b: string): (r: Unmarshalled)
    ensures r.failed <==> DecodeInt64(b).Invalid?
    ensures r.failed ==> r.receiver == u
    ensures !r.failed ==> Valid(r.receiver) && r.receiver.nsec == 0
  {
    match DecodeInt64(b)
    case Invalid => Unmarshalled(u, true)
    case Null => Unmarshalled(UnixTime(0, 0), false)
    case Number(timestamp) => Unmarshalled(UnixTime(timestamp, 0), false)
  }

  /** `MarshalJSON`: the decimal Unix seconds; it never fails. */
  function MarshalJSON(u: UnixTime): (b: string)
    ensures |b| > 0
  {
    IntToString(u.sec)
  }

  // ---- Properties ----

  /** A rendered integer is a JSON integer literal with that value. */
  lemma RenderedIsJsonInteger(i: int)
    ensures IsJsonInteger(IntToString(i)) && ReadInteger(IntToString(i)) == i
  {
    if i < 0 {
      assert IntToString(i)[1..] == NatToString(-i);
      ReadRendered(-i);
    } else {
      ReadRendered(i);
    }
  }

  /** Trimming leaves text without surrounding whitespace alone. */
  lemma TrimUnpadded(t: string)
    requires |t| > 0 && !IsSpace(t[0]) && !IsSpace(t[|t| - 1])
    ensures Trim(t) == t
  {
  }

  /** Whitespace around a value is ignored. */
  lemma {:induction false} TrimPadded(before: string, t: string, after: string)
    requires AllSpace(before) && AllSpace(after)
    requires |t| > 0 && !IsSpace(t[0]) && !IsSpace(t[|t| - 1])
    ensures Trim(before + t + after) == t
    decreases |before| + |after|
  {
    if |before| > 0 {
      assert (before + t + after)[1..] == before[1..] + t + after;
      TrimPadded(before[1..], t, after);
    } else if |after| > 0 {
      assert before + t + after == t + after;
      TrimRightPadded(t, after);
      assert TrimLeft(t + after) == t + after;
    } else {
      assert before + t + after == t;
    }
  }

  lemma {:induction false} TrimRightPadded(t: string, after: string)
    requires AllSpace(after)
    requires |t| > 0 && !IsSpace(t[|t| - 1])
    ensures TrimRight(t + after) == t
    decreases |after|
  {
    if |after| > 0 {
      var shorter := after[..|after| - 1];
      assert (t + after)[..|t + after| - 1] == t + shorter;
      TrimRightPadded(t, shorter);
    } else {
      assert t + after == t;
    }
  }

  /** Unmarshal after marshal keeps the whole seconds and drops the nanoseconds. */
  lemma MarshalThenUnmarshal(u: UnixTime, v: UnixTime)
    requires Valid(u)
    ensures UnmarshalJSON(v, MarshalJSON(u)) == Unmarshalled(UnixTime(u.sec, 0), false)
  {
    var b := MarshalJSON(u);
    RenderedIsJsonInteger(u.sec);
    assert IsDigit(b[|b| - 1]);
    TrimUnpadded(b);
    assert b != "null";
  }

  /** A padded integer literal within range decodes to that many whole seconds. */
  lemma UnmarshalPadded(u: UnixTime, before: string, t: string, after: string)
    requires AllSpace(before) && AllSpace(after)
    requires IsJsonInteger(t) && InInt64(ReadInteger(t))
    ensures UnmarshalJSON(u, before + t + after) == Unmarshalled(UnixTime(ReadInteger(t), 0), false)
  {
    assert t[|t| - 1] == (if t[0] == '-' then t[1..][|t| - 2] else t[|t| - 1]);
    assert IsDigit(t[|t| - 1]);
    TrimPadded(before, t, after);
  }

  /** Rendering the value of an integer literal gives the literal, except "-0". */
  lemma RenderLiteral(t: string)
    requires IsJsonInteger(t)
    ensures IntToString(ReadInteger(t)) == (if t == "-0" then "0" else t)
  {
    if |t| > 0 && t[0] == '-' {
      var digits := t[1..];
      RenderRead(digits);
      assert t == "-" + digits;
      if digits == "0" {
        assert t == "-0";
      } else {
        LeadingNonZeroIsPositive(digits);
      }
    } else {
      RenderRead(t);
    }
  }

  /** Marshal after a successful unmarshal of an integer literal gives the
      literal back, except that "-0" comes back as "0"; whitespace around it is
      dropped. */
  lemma UnmarshalThenMarshal(u: UnixTime, before: string, t: string, after: string)
    requires AllSpace(before) && AllSpace(after)
    requires IsJsonInteger(t) && InInt64(ReadInteger(t))
    ensures var r := UnmarshalJSON(u, before + t + after);
      && !r.failed
      && MarshalJSON(r.receiver) == (if t == "-0" then "0" else t)
  {
    UnmarshalPadded(u, before, t, after);
    RenderLiteral(t);
  }

  /** `null` succeeds and sets the epoch, whatever the receiver held. */
  lemma NullSetsEpoch(u: UnixTime)
    ensures UnmarshalJSON(u, "null") == Unmarshalled(UnixTime(0, 0), false)
  {
    TrimUnpadded("null");
  }

  /** Text with a character that is neither a digit nor a leading minus (a
      fraction, an exponent, a string, another literal) is rejected and the
      receiver keeps its value; so is empty text. */
  lemma NonIntegerTextIsRejected(u: UnixTime, t: string, i: nat)
    requires |t| > 0 && !IsSpace(t[0]) && !IsSpace(t[|t| - 1]) && t != "null"
    requires i < |t| && !IsDigit(t[i]) && !(i == 0 && t[i] == '-')
    ensures UnmarshalJSON(u, t) == Unmarshalled(u, true)
    ensures UnmarshalJSON(u, "") == Unmarshalled(u, true)
  {
    TrimUnpadded(t);
    if |t| > 0 && t[0] == '-' {
      assert t[1..][i - 1] == t[i];
    }
  }

  /** An integer literal outside the `int64` range is rejected too. */
  lemma OutOfRangeIsRejected(u: UnixTime, i: int)
    requires !InInt64(i)
    ensures UnmarshalJSON(u, IntToString(i)) == Unmarshalled(u, true)
  {
    var b := IntToString(i);
    RenderedIsJsonInteger(i);
    assert IsDigit(b[|b| - 1]);
    TrimUnpadded(b);
    assert b != "null";
  }
}

=== FILE: wrappers.dfy ===
/** Optional values, standing for Go's "absent/zero" cases and Rust's `Option`. */
module Wrappers {

  datatype Option<+T> = None | Some(value: T) {

    /** The wrapped value, or `default` when there is none (Rust's `unwrap_or`). */
    function GetOr(default: T): (r: T)
      ensures Some? ==> r == value
      ensures None? ==> r == default
    {
      match this
      case Some(v) => v
      case None => default
    }
  }
}
